=== FILE: README.md ===
# Bikeshare explorer: verified model of its filtering and prompt logic

`bikeshare.py` is an interactive console tool for exploring US bikeshare
trips. It asks for a city, a month and a weekday. It loads that city's CSV
file, keeps the trips of the chosen month and day, and prints statistics. It
can then page through the raw rows five at a time and offers to start over.

This project models the parts of that script that are the program's own
logic rather than library calls:

- the **filter collector** (`get_filters`): three reprompting loops that
  lowercase each answer and accept it only if it is in a fixed list
  (`filters.dfy`, built on the generic loop in `prompts.dfy`);
- the **city table** `CITY_DATA` and the **data loader** (`load_data`): city
  lookup, then the month filter, then the day filter, as order-preserving
  selections over already-parsed trip records (`loader.dfy`, `seqs.dfy`);
- the **paginated viewer** (`display_data`): yes/no prompts and windows of
  five rows (`viewer.dfy`);
- the **session controller** (`main`): rounds repeated while the restart
  answer lowercases to "yes" (`session.dfy`).

Console input is modelled as a finite sequence of responses. Each loop is a
recursive function that consumes responses and reports how many it read. So
"the input ran out" is an explicit outcome. `str.lower()` is ASCII case
folding (`ascii.dfy`). `Option` and `Result` live in `wrappers.dfy`.

The viewer never shows a trailing partial window. It shows a window only
while `end_idx <= len(df)` (bikeshare.py:202), and otherwise prints "No more
data to display." and stops. So with 12 rows, three "yes" answers show rows
[0:5) and [5:10), and rows 10 and 11 never appear. With 3 rows, nothing is
ever shown (`Viewer.TwelveRowsShowTwoWindows`, `Viewer.ThreeRowsShowNothing`).

The city table's key for New York is `new york city`, with spaces
(bikeshare.py:6), and its file is `new_york_city.csv`.

In a session, a selection that keeps no rows ends the round before the
viewer. The first report takes element 0 of the month column's modes
(bikeshare.py:92). For an empty selection that element does not exist, and
the lookup raises. The model records this as the session ending `NoRows`.

## Model

| member | source | states |
|---|---|---|
| Ascii.Lower | bikeshare.py:23 | Lowercasing keeps the length, leaves no upper-case ASCII letter, maps each upper-case letter to its lower-case partner and leaves every other character unchanged. |
| Ascii.LowerIdempotent | bikeshare.py:68 | Lowercasing an already lowercased answer again (as `load_data` does with the validated city) changes nothing. |
| Seqs.Filter | bikeshare.py:75 | A boolean-mask selection never has more rows than its input; every kept row satisfies the mask and comes from the input. |
| Seqs.FilterSelectsExactly | bikeshare.py:75 | The selection is an order-preserving subsequence that uses every position whose row satisfies the mask and no other position. |
| Seqs.FilterMultiplicity | bikeshare.py:79 | Each row value occurs in the selection as often as in the input if it satisfies the mask, otherwise not at all. |
| Seqs.FilterSubMultiset | bikeshare.py:79 | A boolean mask keeps each row value at most as often as the input holds it. |
| Seqs.FilterKeepsAll | bikeshare.py:73-79 | A mask that holds on every row returns the rows unchanged and in order. |
| Seqs.FilterIdempotent | bikeshare.py:75 | Applying the same mask to a selection's output changes nothing. |
| Seqs.FilterTwice | bikeshare.py:73-79 | The month mask followed by the day mask selects the same rows as one mask that is their conjunction. |
| Prompts.ReadValidated | bikeshare.py:22-28 | A reprompting loop returns the lowercase form of the first response whose lowercase form is in the accepted list. Every earlier response was rejected. It returns nothing exactly when no response is acceptable. |
| Prompts.ReadValidatedFrom | bikeshare.py:22-28 | A loop started part-way through the input accepts the first acceptable response from that point on, lowercased. It finds none exactly when no acceptable response is left. |
| Prompts.ReadValidatedPrefix | bikeshare.py:22-28 | A loop that has accepted an answer has read nothing after it: appending more responses does not change its result. |
| Prompts.ReadValidatedTake | bikeshare.py:22-28 | Conversely, cutting the input anywhere after the accepted answer gives the same result: the loop's answer depends only on the responses it read. |
| Prompts.ReadValidatedIgnoresCase | bikeshare.py:23-24 | Responses that differ only in letter case lead to the same accepted answer after the same number of reads. |
| Prompts.Answers | bikeshare.py:209-211 | The stream of accepted answers holds only words from the accepted list and is no longer than the responses. |
| Prompts.ReadValidatedTakesFirstAnswer | bikeshare.py:195-199 | One validation loop consumes exactly the first accepted answer. The rest of the accepted answers come from the responses after it. |
| Prompts.AnswersAppend | bikeshare.py:195-211 | The accepted answers in two stretches of input read one after the other are those of the first stretch followed by those of the second. |
| Prompts.AnswersOfPrefix | bikeshare.py:195-211 | The accepted answers in the first part of the input are the first accepted answers of the whole input. |
| Prompts.ReadValidatedReadsOne | bikeshare.py:195-199 | The responses one validation loop reads hold exactly one accepted answer, the one it returns. |
| Prompts.ReadValidatedThenAnswers | bikeshare.py:195-211 | A validation loop followed by a reader that stopped right after its n-th answer has together read exactly n + 1 answers, and also stopped right after the last of them. |
| Filters.Collect | bikeshare.py:20-51 | The three prompts return a city, a month and a day each from its own list, all in lower case, after reading at least three responses. |
| Filters.CollectTakesFirstAnswers | bikeshare.py:20-51 | The city is the first response that lowercases into the city list. The month is the first one after it that lowercases into the month list. The day is the first one after that which lowercases into the day list, and it is the last response read. The input runs out first exactly when no such city, month and day occur in that order. |
| Filters.GetFilters | bikeshare.py:9-54 | `get_filters` returns a city in the city list that is also a key of the city table, a month in the month list and a day in the day list, all lowercased, after reading at least three responses. |
| Filters.GetFiltersTakesFirstAnswers | bikeshare.py:9-54 | `get_filters` returns the first acceptable city, then the first acceptable month after it, then the first acceptable day after that, all lowercased. It runs out of input exactly when the responses hold no such three answers in order. |
| Filters.CollectPrefix | bikeshare.py:20-51 | Once the day is accepted, the prompts read nothing more: appending responses does not change the selection or the count read. |
| Filters.CollectTake | bikeshare.py:20-51 | Conversely, cutting the input anywhere after the accepted day gives the same selection and count: the responses the prompts read decide them alone. |
| Filters.ValidWordsAreLowerCase | bikeshare.py:20-42 | Every word in the city, month and day lists is already in lower case. |
| Filters.ValidCitiesAreTableKeys | bikeshare.py:5-7 | A city is in the prompt's city list if and only if it is a key of `CITY_DATA`. |
| Filters.CollectIgnoresCase | bikeshare.py:22-51 | The three prompts give the same result for response streams that differ only in letter case. |
| Filters.GetFiltersIgnoresCase | bikeshare.py:23-45 | `get_filters` accepts each answer typed in any letter case, with the same outcome as for its lowercase form. |
| Filters.GetFiltersExample | bikeshare.py:22-51 | An unknown city is rejected and asked again. Capitalised answers are accepted in their lowercase form: ("Boston", "Chicago", "JUNE", "Friday") gives (chicago, june, friday) after four reads. |
| Loader.MonthNumber | bikeshare.py:74 | A month name parses, in any case, exactly when it is one of the six names. Its ordinal is between 1 and 6, and the name at that position of the list is the lowercased input. |
| Loader.MonthNumberRoundTrip | bikeshare.py:74 | Each of the six names parses back to its position: January is 1 and June is 6. |
| Loader.ApplyFilters | bikeshare.py:73-81 | Filtering fails, with an unknown-month error, exactly when the month is not "all" and cannot be parsed. With month and day both "all" the rows come back unchanged. Otherwise every returned row is one of the input rows and matches the chosen month ordinal and the lowercased weekday. |
| Loader.ApplyFiltersSelectsExactly | bikeshare.py:73-79 | The filtered rows are exactly the rows of the month's ordinal (unless "all") and whose lowercased weekday is the lowercased day (unless "all"), in their original order. |
| Loader.ApplyFiltersSubMultiset | bikeshare.py:73-79 | The month and day masks only drop rows: a successful filter returns a sub-multiset of its input. |
| Loader.ApplyFiltersIdempotent | bikeshare.py:73-79 | Filtering the loader's output again with the same month and day returns it unchanged. |
| Loader.ValidSelectionLoads | bikeshare.py:68-75 | A selection accepted by the prompts never makes the city lookup or the month parse fail, provided the city files are present. |
| Loader.LoadData | bikeshare.py:57-81 | Loading fails exactly on an unknown city, a missing file or an unparseable month other than "all". An unknown city is reported before anything is read, with the lowercased key it looked up. A missing file is reported by that file's name. With the file present, a month other than "all" that does not parse fails with that month, after the file was read. On success, the file is present, every returned row matches the month and day, and there are no more rows than the file has. |
| Loader.LoadDataFromFile | bikeshare.py:68-79 | On success, every returned row is a row of the file the city table names, and it occurs at most as often as the file holds it: the returned rows are a sub-multiset of the file. |
| Loader.LoadDataSelectsExactly | bikeshare.py:68-79 | A successful load reads the file the city table names. It returns exactly the rows of that file that the month and day keep, in file order. |
| Viewer.ShowFrom | bikeshare.py:201-214 | From window k on, each shown window is rows [5(k+j), 5(k+j)+5) and lies completely inside the rows. Running out of rows is reported only after the last full window. |
| Viewer.DisplayData | bikeshare.py:188-214 | Shown window j is exactly rows [5j, 5j+5) and has five rows. At most len/5 windows are shown. "No more data" comes only after all full windows were shown. |
| Viewer.ShowFromUnanswered | bikeshare.py:201-214 | The viewing loop is left waiting for an answer only after it has read every response. |
| Viewer.DisplayDataUnanswered | bikeshare.py:188-214 | `display_data` is left waiting for an answer only after it has read every response. |
| Viewer.ShowFromPrefix | bikeshare.py:201-214 | The viewing loop reads nothing past the answer that ends it: unless it ran out of input, appending responses changes nothing. |
| Viewer.DisplayDataPrefix | bikeshare.py:188-214 | `display_data` reads nothing past the answer that ends it: unless it ran out of input, appending responses changes nothing. |
| Viewer.ShowFromTake | bikeshare.py:201-214 | Conversely, when the viewing loop stopped on an answer, cutting the input anywhere after that answer gives the same view. |
| Viewer.DisplayDataTake | bikeshare.py:188-214 | Conversely, when `display_data` stopped on an answer, cutting the input anywhere after that answer gives the same view. |
| Viewer.ShowFromByAnswers | bikeshare.py:201-214 | From any reachable window, the number of windows shown and the reason for stopping depend only on the leading "yes" answers in the accepted-answer stream. |
| Viewer.DisplayDataByAnswers | bikeshare.py:195-214 | With y leading "yes" answers, min(y, len/5) windows are shown. "No more data" comes exactly when y > len/5. Otherwise viewing stopped on a "no", or because the input ran out, and the accepted-answer stream tells which. |
| Viewer.ShowFromReadsAnswers | bikeshare.py:201-214 | Unless it ran out of input, the viewing loop read exactly one accepted yes/no answer per window it showed. If it read anything, the last response it read is the accepted answer that ended it. |
| Viewer.DisplayDataReadsAnswers | bikeshare.py:195-214 | Unless it ran out of input, `display_data` read exactly one accepted yes/no answer more than the windows it showed, and stopped right after the last of them. So the response after it is the one `main` reads as the restart answer (bikeshare.py:229). |
| Viewer.TwelveRowsShowTwoWindows | bikeshare.py:201-206 | With 12 rows and three "yes" answers, rows [0:5) and [5:10) are shown, then "no more data". Rows 10 and 11 are never shown. |
| Viewer.ThreeRowsShowNothing | bikeshare.py:202-204 | With 3 rows, the first "yes" already reports that no data is left, and nothing is shown. |
| Session.PlayRound | bikeshare.py:218-229 | A completed round plays the selection `get_filters` returned on the same input, so `get_filters` did not run out. Its rows are what loading that selection returns. Those rows are not empty, and its restart answer is the last response it read. A round that stops never counts as quitting. |
| Session.PlayRoundSteps | bikeshare.py:220-229 | A completed round plays the selection `get_filters` returned. Its view is `display_data` on the rows with the responses that follow the selection. The restart answer is the response right after the viewer. |
| Session.PlayRoundStops | bikeshare.py:220-229 | A round stops for lack of input exactly when `get_filters` or the restart prompt runs out. It stops on a loading error, carrying that error, exactly when loading the selection fails. It stops with no rows exactly when the selection keeps none. |
| Session.LoadAndView | bikeshare.py:221-229 | After `get_filters`, a completed round keeps the selection it was given and the rows loading it returns, which are not empty. It reads at least one response past the selection, and the last response it reads is the restart answer. It never ends as a quit. |
| Session.ViewAndAsk | bikeshare.py:227-229 | The round keeps the selection and rows it was given and reads at least one response past the given position. The last response it reads is the restart answer. Only running out of input stops it. |
| Session.ViewAndAskSteps | bikeshare.py:227-229 | The view of a round is `display_data` on the responses from the given position, and the restart answer is the response right after the viewer. The round stops exactly when the viewer used up the input. |
| Session.ViewAndAskPrefix | bikeshare.py:227-229 | The end of a round reads nothing past the restart answer. |
| Session.PlayRoundPrefix | bikeshare.py:218-229 | A round reads nothing past its restart answer: appending responses does not change the round. |
| Session.ViewAndAskTake | bikeshare.py:227-229 | Cutting the input anywhere after the restart answer leaves the end of the round unchanged. |
| Session.PlayRoundTake | bikeshare.py:218-229 | A completed round is decided by the responses up to its restart answer: cutting the input anywhere after it gives the same round. |
| Session.PlayRoundFirstRound | bikeshare.py:218-229 | The converse of `PlayRoundPrefix`: a completed round is played the same on exactly the responses it used, so those responses form one complete round. |
| Session.RunSession | bikeshare.py:218-231 | Every round was played from a valid selection and its loaded rows. Every round but the last was followed by "yes". The session quits exactly when the last round's restart answer did not lowercase to "yes". Its first round is the first round played, and a first round that stops ends the session with that round's reason and no rounds. |
| Session.PlayRoundLoads | bikeshare.py:220-221 | With every city file present, a round never stops on a loading error. |
| Session.SessionNeverFailsToLoad | bikeshare.py:219-221 | With every city file present, no session ends on a loading error: the lookup in `load_data` never fails on a validated city. |
| Session.RestartContinuesOnRest | bikeshare.py:229-231 | When the input starts with one complete round whose restart answer lowercases to "yes", the session is that round followed by a fresh session on the rest of the input, whatever that rest is. |
| Session.QuitIgnoresRest | bikeshare.py:229-231 | When the input starts with one complete round whose restart answer is anything else, the session is that one round and `Quit`, whatever input follows. |
| Scenarios.SampleRoundPlays | bikeshare.py:218-229 | On the input "Chicago", "all", "all", "no" and then any answer, with a one-trip Chicago file, the round selects Chicago for every month and day, loads that one trip, shows no raw data, and reads the answer as the fifth response. |
| Scenarios.SampleQuit | bikeshare.py:229-231 | After that sample round, a "no" ends the session with that one round, whatever input follows. |
| Scenarios.SampleRestart | bikeshare.py:229-231 | After that sample round, a "yes" starts a fresh session on the responses that follow. |
| Scenarios.SampleTwoRounds | bikeshare.py:218-231 | The sample round answered "yes" and then the sample round answered "no" make a session of exactly those two rounds that quits, whatever input follows. |

## Left out

- The statistics reporters `time_stats`, `station_stats`, `trip_duration_stats` and `user_stats` (bikeshare.py:84-186) are left out. They are thin wrappers over pandas `mode`, `value_counts`, `groupby().size().idxmax()`, `sum` and `mean`, whose tie-breaking and ordering belong to the library. The session keeps one consequence of them: an empty selection stops the session (`NoRows`).
- Session.PlayRound: a non-empty selection always goes on to the viewer. `Trip` has no missing values, so no raise of a reporter on missing data is modelled. Two such raises are possible on a non-empty selection. `df.groupby(['Start Station', 'End Station']).size().idxmax()` (bikeshare.py:122) raises when no row has both stations. `int(df['Birth Year'].min())` (bikeshare.py:174) raises when every birth year in the selection is missing, before the `mode()[0]` on that column (bikeshare.py:180) is reached.
- Session.PlayRound: the `NoRows` ending assumes pandas' behaviour that `mode()` of an empty column is empty, so indexing it with `[0]` raises. That library code is not part of this model.
- Reading the CSV (`pd.read_csv`) and parsing timestamps (`pd.to_datetime`, `dt.day_name`) are left out. Trips arrive already parsed, with start month, weekday name, start hour and stations. The files are a map from file name to rows. A name missing from the map stands for a file that cannot be read.
- Trip duration, user type, gender, birth year, end time and the raw start time are left out. The reporters compute with them, and the viewer prints them as part of each raw row (bikeshare.py:206). The model's windows carry only the fields of `Trip`.
- Floating-point sums and means, and the `int()` truncation of birth years, are left out.
- Console output is left out: prompts, error messages, the title-cased echo of each choice, the separator lines, the printed frames and the wall-clock timing (`time.time()`). The viewer returns the windows it would print, as `Trip` records rather than full rows.
- Full Unicode `str.lower()` is left out. Only ASCII letters are folded.
- When input runs out, Python's `input()` raises `EOFError` and the program stops. The model instead ends the loop with an explicit outcome: `None`, `Unanswered` or `InputEnded`.
- Loader.MonthNumber: a table of the six names the prompt offers. `pd.to_datetime(month, format='%B')` would also parse July to December, but the month prompt never produces those.

=== FILE: ascii.dfy ===
/**
 * ASCII case folding, the part of Python's `str.lower()` that the program
 * relies on: every prompt answer is lowercased before it is compared with a
 * list of accepted words.
 */
module Ascii {

  /** An upper-case ASCII letter. */
  predicate IsUpper(c: char) {
    'A' <= c <= 'Z'
  }

  /** True when `s` holds no upper-case ASCII letter. */
  predicate IsLowerCase(s: string) {
    forall i :: 0 <= i < |s| ==> !IsUpper(s[i])
  }

  /** The lower-case partner of an upper-case ASCII letter; any other character unchanged. */
  function LowerChar(c: char): (l: char)
    ensures IsUpper(c) ==> l as int == c as int + 32
    ensures !IsUpper(c) ==> l == c
  {
    if IsUpper(c) then (c as int - 'A' as int + 'a' as int) as char else c
  }

  /** `s.lower()` restricted to ASCII: each upper-case letter becomes its lower-case partner. */
  function Lower(s: string): (r: string)
    ensures |r| == |s|
    ensures IsLowerCase(r)
    ensures forall i :: 0 <= i < |s| && !IsUpper(s[i]) ==> r[i] == s[i]
    ensures forall i :: 0 <= i < |s| && IsUpper(s[i]) ==> r[i] as int == s[i] as int + 32
  {
    seq(|s|, i requires 0 <= i < |s| => LowerChar(s[i]))
  }

  /** Lowercasing leaves a string without upper-case letters unchanged. */
  lemma LowerFixesLowerCase(s: string)
    requires IsLowerCase(s)
    ensures Lower(s) == s
  {
  }

  /** Lowercasing twice is lowercasing once. */
  lemma LowerIdempotent(s: string)
    ensures Lower(Lower(s)) == Lower(s)
  {
  }
}

=== FILE: filters.dfy ===
/**
 * The filter collector (`get_filters`): three reprompting loops that read a
 * city, a month and a day, each validated against a fixed list after
 * lowercasing, and the city-to-file table (`CITY_DATA`) the loader uses.
 */
module Filters {
  import opened Wrappers
  import opened Ascii
  import opened Prompts
  import Seqs

  /** City name to the CSV file holding its trips. */
  const CityData: map<string, string> := map[
    "chicago" := "chicago.csv",
    "new york city" := "new_york_city.csv",
    "washington" := "washington.csv"
  ]

  const ValidCities: seq<string> := ["chicago", "new york city", "washington"]
  const ValidMonths: seq<string> := ["january", "february", "march", "april", "may", "june", "all"]
  const ValidDays: seq<string> :=
    ["monday", "tuesday", "wednesday", "thursday", "friday", "saturday", "sunday", "all"]

  /** A validated (city, month, day) choice. */
  datatype Selection = Selection(city: string, month: string, day: string)

  /** The selection and how many responses the three prompts consumed. */
  datatype Collected = Collected(selection: Selection, used: nat)

  /** A selection each of whose parts passed its prompt's check. */
  predicate IsValid(s: Selection) {
    s.city in ValidCities && s.month in ValidMonths && s.day in ValidDays
  }

  /**
   * Runs three prompts in turn over the response stream, accepting answers
   * from `cities`, `months` and `days`. `None` when the input runs out first.
   */
  function Collect(responses: seq<string>, cities: seq<string>, months: seq<string>, days: seq<string>)
    : (r: Option<Collected>)
    ensures r.Some? ==>
      && r.value.selection.city in cities
      && r.value.selection.month in months
      && r.value.selection.day in days
      && IsLowerCase(r.value.selection.city)
      && IsLowerCase(r.value.selection.month)
      && IsLowerCase(r.value.selection.day)
      && 3 <= r.value.used <= |responses|
  {
    match ReadValidated(responses, cities)
    case None => None
    case Some(c) => CollectMonth(c, responses[c.used..], months, days)
  }

  /** The month and day prompts, once the city `c` has been accepted. */
  function CollectMonth(c: Accepted, responses: seq<string>, months: seq<string>, days: seq<string>)
    : (r: Option<Collected>)
  {
    match ReadValidated(responses, months)
    case None => None
    case Some(m) => CollectDay(c, m, responses[m.used..], days)
  }

  /** The day prompt, once the city `c` and month `m` have been accepted. */
  function CollectDay(c: Accepted, m: Accepted, responses: seq<string>, days: seq<string>): (r: Option<Collected>)
  {
    match ReadValidated(responses, days)
    case None => None
    case Some(d) => Some(Collected(Selection(c.value, m.value, d.value), c.used + m.used + d.used))
  }

  /**
   * `c` is what the three prompts read: the city is the first response that
   * lowercases into `cities`, the month the first one after it that
   * lowercases into `months`, and the day the first one after that which
   * lowercases into `days`; the day was the last response read.
   */
  ghost predicate TakesFirstAnswers(responses: seq<string>, cities: seq<string>, months: seq<string>, days: seq<string>,
                                    c: Collected)
  {
    exists i, j ::
      && FirstAcceptedAfter(responses, cities, -1, i)
      && FirstAcceptedAfter(responses, months, i, j)
      && FirstAcceptedAfter(responses, days, j, c.used - 1)
      && c.selection == Selection(Lower(responses[i]), Lower(responses[j]), Lower(responses[c.used - 1]))
  }

  /** Some acceptable city is followed by some acceptable month, and that by some acceptable day. */
  ghost predicate HasAnswers(responses: seq<string>, cities: seq<string>, months: seq<string>, days: seq<string>) {
    exists i, j, k :: i < j < k && AcceptedAt(responses, cities, i) && AcceptedAt(responses, months, j)
      && AcceptedAt(responses, days, k)
  }

  /**
   * The three prompts return the first acceptable city, then the first
   * acceptable month after it, then the first acceptable day after that; the
   * input runs out first exactly when the stream holds no such three answers
   * in order.
   */
  lemma CollectTakesFirstAnswers(responses: seq<string>, cities: seq<string>, months: seq<string>, days: seq<string>)
    ensures Collect(responses, cities, months, days).Some? ==>
      TakesFirstAnswers(responses, cities, months, days, Collect(responses, cities, months, days).value)
    ensures Collect(responses, cities, months, days).None? <==> !HasAnswers(responses, cities, months, days)
  {
    assert responses[0..] == responses;
    ReadValidatedFrom(responses, cities, 0);
    var rc := ReadValidated(responses, cities);
    if rc.Some? {
      CollectMonthFirstAnswers(responses, rc.value, cities, months, days);
    }
  }

  /**
   * After the city `c`, the first acceptable response, the month and day
   * prompts take the first acceptable month and day in order, or run out
   * exactly when there are no such two answers after the city.
   */
  lemma CollectMonthFirstAnswers(responses: seq<string>, c: Accepted, cities: seq<string>, months: seq<string>,
                                 days: seq<string>)
    requires 1 <= c.used <= |responses|
    requires FirstAcceptedAfter(responses, cities, -1, c.used - 1) && c.value == Lower(responses[c.used - 1])
    ensures CollectMonth(c, responses[c.used..], months, days).Some? ==>
      TakesFirstAnswers(responses, cities, months, days, CollectMonth(c, responses[c.used..], months, days).value)
    ensures CollectMonth(c, responses[c.used..], months, days).None? <==> !HasAnswers(responses, cities, months, days)
  {
    ReadValidatedFrom(responses, months, c.used);
    var rm := ReadValidated(responses[c.used..], months);
    if rm.Some? {
      assert responses[c.used..][rm.value.used..] == responses[c.used + rm.value.used..];
      CollectDayFirstAnswers(responses, c, rm.value, cities, months, days);
    } else {
      NoMonthAfterCity(responses, c.used - 1, cities, months, days);
    }
  }

  /** With no acceptable month after the first acceptable city, there are no three answers in order. */
  lemma NoMonthAfterCity(responses: seq<string>, city: int, cities: seq<string>, months: seq<string>,
                         days: seq<string>)
    requires FirstAcceptedAfter(responses, cities, -1, city)
    requires forall p :: city < p ==> !AcceptedAt(responses, months, p)
    ensures !HasAnswers(responses, cities, months, days)
  {
  }

  /**
   * After the city `c` and the month `m`, each the first acceptable response
   * in its stretch, the day prompt takes the first acceptable day, or runs out
   * exactly when there is no such three answers in order.
   */
  lemma CollectDayFirstAnswers(responses: seq<string>, c: Accepted, m: Accepted, cities: seq<string>,
                               months: seq<string>, days: seq<string>)
    requires 1 <= c.used && 1 <= m.used && c.used + m.used <= |responses|
    requires FirstAcceptedAfter(responses, cities, -1, c.used - 1) && c.value == Lower(responses[c.used - 1])
    requires FirstAcceptedAfter(responses, months, c.used - 1, c.used + m.used - 1)
    requires m.value == Lower(responses[c.used + m.used - 1])
    ensures CollectDay(c, m, responses[c.used + m.used..], days).Some? ==>
      TakesFirstAnswers(responses, cities, months, days, CollectDay(c, m, responses[c.used + m.used..], days).value)
    ensures CollectDay(c, m, responses[c.used + m.used..], days).None? <==> !HasAnswers(responses, cities, months, days)
  {
    var from := c.used + m.used;
    ReadValidatedFrom(responses, days, from);
    var rd := ReadValidated(responses[from..], days);
    if rd.Some? {
      var i, j := c.used - 1, from - 1;
      var used := from + rd.value.used;
      assert FirstAcceptedAfter(responses, days, j, used - 1);
      assert HasAnswers(responses, cities, months, days) by {
        assert i < j < used - 1;
      }
    }
  }

  /** `get_filters`: the three prompts with the program's lists of cities, months and days. */
  function GetFilters(responses: seq<string>): (r: Option<Collected>)
    ensures r.Some? ==>
      && IsValid(r.value.selection)
      && r.value.selection.city in CityData
      && IsLowerCase(r.value.selection.month)
      && IsLowerCase(r.value.selection.day)
      && 3 <= r.value.used <= |responses|
  {
    Collect(responses, ValidCities, ValidMonths, ValidDays)
  }

  /**
   * `get_filters` returns the first acceptable city, month and day in that
   * order, lowercased, and runs out of input exactly when the responses hold
   * no such three answers in order.
   */
  lemma GetFiltersTakesFirstAnswers(responses: seq<string>)
    ensures GetFilters(responses).Some? ==>
      TakesFirstAnswers(responses, ValidCities, ValidMonths, ValidDays, GetFilters(responses).value)
    ensures GetFilters(responses).None? <==> !HasAnswers(responses, ValidCities, ValidMonths, ValidDays)
  {
    CollectTakesFirstAnswers(responses, ValidCities, ValidMonths, ValidDays);
  }

  /**
   * Once the three prompts have their answers they read no further:
   * responses after the day do not change the selection.
   */
  lemma CollectPrefix(a: seq<string>, b: seq<string>, cities: seq<string>, months: seq<string>, days: seq<string>)
    requires Collect(a, cities, months, days).Some?
    ensures Collect(a + b, cities, months, days) == Collect(a, cities, months, days)
  {
    ReadValidatedPrefix(a, b, cities);
    var c := ReadValidated(a, cities).value;
    CollectMonthPrefix(c, a[c.used..], b, months, days);
  }

  /**
   * Prompts that got their three answers within the first `n` responses give
   * the same selection on those `n` responses alone.
   */
  lemma CollectTake(responses: seq<string>, cities: seq<string>, months: seq<string>, days: seq<string>, n: nat)
    requires Collect(responses, cities, months, days).Some?
    requires Collect(responses, cities, months, days).value.used <= n <= |responses|
    ensures Collect(responses[..n], cities, months, days) == Collect(responses, cities, months, days)
  {
    var a := responses[..n];
    CollectTakeAnswers(responses, cities, months, days, n);
    CollectPrefix(a, responses[n..], cities, months, days);
    Seqs.TakeThenDrop(responses, n);
  }

  /** The three answers found within the first `n` responses are found in those responses alone. */
  lemma CollectTakeAnswers(responses: seq<string>, cities: seq<string>, months: seq<string>, days: seq<string>,
                           n: nat)
    requires Collect(responses, cities, months, days).Some?
    requires Collect(responses, cities, months, days).value.used <= n <= |responses|
    ensures Collect(responses[..n], cities, months, days).Some?
  {
    CollectTakesFirstAnswers(responses, cities, months, days);
    TakesFirstAnswersTake(responses, cities, months, days, Collect(responses, cities, months, days).value, n);
    CollectTakesFirstAnswers(responses[..n], cities, months, days);
  }

  /** The three answers `c` took, all read within the first `n` responses, are answers there too. */
  lemma TakesFirstAnswersTake(responses: seq<string>, cities: seq<string>, months: seq<string>, days: seq<string>,
                              c: Collected, n: nat)
    requires TakesFirstAnswers(responses, cities, months, days, c) && c.used <= n <= |responses|
    ensures HasAnswers(responses[..n], cities, months, days)
  {
    var i, j :| && FirstAcceptedAfter(responses, cities, -1, i)
                && FirstAcceptedAfter(responses, months, i, j)
                && FirstAcceptedAfter(responses, days, j, c.used - 1);
    HasAnswersTake(responses, cities, months, days, i, j, c.used - 1, n);
  }

  /** Answers at positions before `n` are still answers in the first `n` responses. */
  lemma HasAnswersTake(responses: seq<string>, cities: seq<string>, months: seq<string>, days: seq<string>,
                       i: int, j: int, k: int, n: nat)
    requires i < j < k < n <= |responses|
    requires AcceptedAt(responses, cities, i) && AcceptedAt(responses, months, j) && AcceptedAt(responses, days, k)
    ensures HasAnswers(responses[..n], cities, months, days)
  {
    var a := responses[..n];
    assert a[i] == responses[i] && a[j] == responses[j] && a[k] == responses[k];
    assert AcceptedAt(a, cities, i) && AcceptedAt(a, months, j) && AcceptedAt(a, days, k);
  }

  /** The month and day prompts read nothing past the accepted day. */
  lemma CollectMonthPrefix(c: Accepted, a: seq<string>, b: seq<string>, months: seq<string>, days: seq<string>)
    requires CollectMonth(c, a, months, days).Some?
    ensures CollectMonth(c, a + b, months, days) == CollectMonth(c, a, months, days)
  {
    ReadValidatedPrefix(a, b, months);
    var n := ReadValidated(a, months).value.used;
    CollectDayPrefix(c, ReadValidated(a, months).value, a[n..], b, days);
  }

  /** The day prompt reads nothing past the accepted day. */
  lemma CollectDayPrefix(c: Accepted, m: Accepted, a: seq<string>, b: seq<string>, days: seq<string>)
    requires CollectDay(c, m, a, days).Some?
    ensures CollectDay(c, m, a + b, days) == CollectDay(c, m, a, days)
  {
    ReadValidatedPrefix(a, b, days);
  }

  /** The accepted words are written in lower case, so lowercasing them again changes nothing. */
  lemma ValidWordsAreLowerCase()
    ensures forall w :: w in ValidCities ==> IsLowerCase(w)
    ensures forall w :: w in ValidMonths ==> IsLowerCase(w)
    ensures forall w :: w in ValidDays ==> IsLowerCase(w)
  {
  }

  /** Every city the collector accepts is a key of the city table, and conversely. */
  lemma ValidCitiesAreTableKeys()
    ensures forall c :: c in ValidCities <==> c in CityData
  {
  }

  /** The prompts read answers case-insensitively: recasing any response changes nothing. */
  lemma CollectIgnoresCase(a: seq<string>, b: seq<string>, cities: seq<string>, months: seq<string>, days: seq<string>)
    requires SameUpToCase(a, b)
    ensures Collect(a, cities, months, days) == Collect(b, cities, months, days)
  {
    ReadValidatedIgnoresCase(a, b, cities);
    var rc := ReadValidated(a, cities);
    if rc.Some? {
      var n := rc.value.used;
      SameUpToCaseSuffix(a, b, n);
      CollectMonthIgnoresCase(rc.value, a[n..], b[n..], months, days);
    }
  }

  /** The month and day prompts, after the city, read answers case-insensitively. */
  lemma CollectMonthIgnoresCase(c: Accepted, a: seq<string>, b: seq<string>, months: seq<string>, days: seq<string>)
    requires SameUpToCase(a, b)
    ensures CollectMonth(c, a, months, days) == CollectMonth(c, b, months, days)
  {
    ReadValidatedIgnoresCase(a, b, months);
    var rm := ReadValidated(a, months);
    if rm.Some? {
      var n := rm.value.used;
      SameUpToCaseSuffix(a, b, n);
      CollectDayIgnoresCase(c, rm.value, a[n..], b[n..], days);
    }
  }

  /** The day prompt, after the city and month, reads answers case-insensitively. */
  lemma CollectDayIgnoresCase(c: Accepted, m: Accepted, a: seq<string>, b: seq<string>, days: seq<string>)
    requires SameUpToCase(a, b)
    ensures CollectDay(c, m, a, days) == CollectDay(c, m, b, days)
  {
    ReadValidatedIgnoresCase(a, b, days);
  }

  /** `get_filters` accepts a city, month or day typed in any letter case. */
  lemma GetFiltersIgnoresCase(a: seq<string>, b: seq<string>)
    requires SameUpToCase(a, b)
    ensures GetFilters(a) == GetFilters(b)
  {
    CollectIgnoresCase(a, b, ValidCities, ValidMonths, ValidDays);
  }

  /**
   * A misspelt city is rejected and reprompted; capitalised answers are
   * accepted in their lowercase form.
   */
  lemma GetFiltersExample()
    ensures GetFilters(["Boston", "Chicago", "JUNE", "Friday"])
         == Some(Collected(Selection("chicago", "june", "friday"), 4))
  {
    var responses := ["Boston", "Chicago", "JUNE", "Friday"];
    assert Lower("Boston") == "boston";
    assert Lower("Chicago") == "chicago";
    assert Lower("JUNE") == "june";
    assert Lower("Friday") == "friday";
    assert ReadValidated(responses, ValidCities) == Some(Accepted("chicago", 2)) by {
      assert responses[1..] == ["Chicago", "JUNE", "Friday"];
    }
    assert responses[2..] == ["JUNE", "Friday"];
    assert responses[2..][1..] == ["Friday"];
  }
}

=== FILE: loader.dfy ===
/**
 * The data loader (`load_data`): resolves the city to its CSV file, takes the
 * already-parsed trips of that file, and keeps the rows of the chosen month
 * and weekday. Reading and timestamp parsing are not modelled: each trip
 * arrives with its start month, weekday name and hour already extracted.
 */
module Loader {
  import opened Wrappers
  import opened Ascii
  import opened Seqs
  import opened Filters

  /** One row of a city's dataset, with the parsed parts of its start time. */
  datatype Trip = Trip(
    startMonth: int,       // 1..12, from `Start Time`
    weekday: string,       // weekday name as pandas prints it, e.g. "Monday"
    startHour: int,        // 0..23
    startStation: string,
    endStation: string)

  /** The errors `load_data` lets propagate to its caller. */
  datatype LoadError =
    | UnknownCity(city: string)     // `KeyError` for the lowercased key
    | MissingFile(file: string)     // the CSV file cannot be read
    | UnknownMonth(month: string)   // the month name cannot be parsed

  /** The six month names the program offers, January first. */
  const MonthNames: seq<string> := ["january", "february", "march", "april", "may", "june"]

  /** Month name to its ordinal, the six entries the program can ask for. */
  const MonthOrdinal: map<string, int> :=
    map["january" := 1, "february" := 2, "march" := 3, "april" := 4, "may" := 5, "june" := 6]

  /** Parses a month name in any letter case to its ordinal. */
  function MonthNumber(month: string): (r: Option<int>)
    ensures r.Some? <==> Lower(month) in MonthNames
    ensures r.Some? ==> 1 <= r.value <= 6 && MonthNames[r.value - 1] == Lower(month)
  {
    if Lower(month) in MonthOrdinal then Some(MonthOrdinal[Lower(month)]) else None
  }

  /** The rows a (month, day) choice keeps, stated directly on one trip. */
  predicate Keeps(t: Trip, month: string, day: string) {
    && (Lower(month) == "all" || MonthNumber(month) == Some(t.startMonth))
    && (Lower(day) == "all" || Lower(t.weekday) == Lower(day))
  }

  /** The row mask `dt.month == month_num`. */
  function MonthMask(n: int): (mask: Trip -> bool)
    ensures forall t :: mask(t) <==> t.startMonth == n
  {
    (t: Trip) => t.startMonth == n
  }

  /** The row mask `dt.day_name().str.lower() == day.lower()`. */
  function DayMask(day: string): (mask: Trip -> bool)
    ensures forall t :: mask(t) <==> Lower(t.weekday) == Lower(day)
  {
    (t: Trip) => Lower(t.weekday) == Lower(day)
  }

  /**
   * The month filter followed by the day filter. Fails only when a month
   * other than "all" has no ordinal; both "all" leaves the rows untouched.
   */
  function ApplyFilters(rows: seq<Trip>, month: string, day: string): (r: Result<seq<Trip>, LoadError>)
    ensures r.Failure? <==> Lower(month) != "all" && MonthNumber(month).None?
    ensures r.Failure? ==> r.error == UnknownMonth(month)
    ensures Lower(month) == "all" && Lower(day) == "all" ==> r == Success(rows)
    ensures r.Success? ==> |r.value| <= |rows| && forall k :: 0 <= k < |r.value| ==> Keeps(r.value[k], month, day)
    ensures r.Success? ==> forall k :: 0 <= k < |r.value| ==> r.value[k] in rows
  {
    var byMonth :=
      if Lower(month) == "all" then Success(rows)
      else match MonthNumber(month)
        case None => Failure(UnknownMonth(month))
        case Some(n) => Success(Filter(rows, MonthMask(n)));
    match byMonth
    case Failure(e) => Failure(e)
    case Success(kept) =>
      if Lower(day) == "all" then Success(kept)
      else Success(Filter(kept, DayMask(day)))
  }

  /**
   * `load_data`: looks the lowercased city up in the city table, reads that
   * file from `files` (the parsed CSV files by name) and applies the filters.
   * It fails on an unknown city (reported with the lowercased key it looked
   * up, before anything is read), then on a missing file, then on a month
   * other than "all" that does not parse; a bad day name is no error, it just
   * matches no row.
   */
  function LoadData(city: string, month: string, day: string, files: map<string, seq<Trip>>)
    : (r: Result<seq<Trip>, LoadError>)
    ensures r == Failure(UnknownCity(Lower(city))) <==> Lower(city) !in CityData
    ensures r.Failure? <==>
      || Lower(city) !in CityData
      || CityData[Lower(city)] !in files
      || (Lower(month) != "all" && Lower(month) !in MonthNames)
    ensures Lower(city) in CityData && CityData[Lower(city)] !in files ==>
      r == Failure(MissingFile(CityData[Lower(city)]))
    ensures
      && Lower(city) in CityData && CityData[Lower(city)] in files
      && Lower(month) != "all" && Lower(month) !in MonthNames
      ==> r == Failure(UnknownMonth(month))
    ensures r.Success? ==>
      && Lower(city) in CityData && CityData[Lower(city)] in files
      && |r.value| <= |files[CityData[Lower(city)]]|
      && forall k :: 0 <= k < |r.value| ==> Keeps(r.value[k], month, day)
  {
    var key := Lower(city);
    if key !in CityData then Failure(UnknownCity(key))
    else
      var file := CityData[key];
      if file !in files then Failure(MissingFile(file))
      else ApplyFilters(files[file], month, day)
  }

  /** Filtering only drops rows: each kept row is taken from `rows`, at most as often as it occurs there. */
  lemma ApplyFiltersSubMultiset(rows: seq<Trip>, month: string, day: string)
    ensures ApplyFilters(rows, month, day).Success? ==>
      multiset(ApplyFilters(rows, month, day).value) <= multiset(rows)
  {
    var kept := if Lower(month) == "all" || MonthNumber(month).None? then rows
                else Filter(rows, MonthMask(MonthNumber(month).value));
    FilterSubMultiset(rows, MonthMask(if MonthNumber(month).Some? then MonthNumber(month).value else 0));
    FilterSubMultiset(kept, DayMask(day));
  }

  /**
   * What `load_data` returns comes from the file the city table names: each
   * row is a row of that file, kept at most as often as the file holds it.
   */
  lemma LoadDataFromFile(city: string, month: string, day: string, files: map<string, seq<Trip>>)
    ensures LoadData(city, month, day, files).Success? ==>
      && Lower(city) in CityData && CityData[Lower(city)] in files
      && multiset(LoadData(city, month, day, files).value) <= multiset(files[CityData[Lower(city)]])
  {
    if Lower(city) in CityData && CityData[Lower(city)] in files {
      ApplyFiltersSubMultiset(files[CityData[Lower(city)]], month, day);
    }
  }

  /** Month names and ordinals are inverse: the table numbers the names 1 to 6 in order. */
  lemma MonthNumberRoundTrip(n: int)
    requires 1 <= n <= 6
    ensures MonthNumber(MonthNames[n - 1]) == Some(n)
  {
    LowerFixesLowerCase(MonthNames[n - 1]);
  }

  /**
   * The filtered rows are exactly the rows that `Keeps` accepts, as an
   * order-preserving subsequence of the file's rows.
   */
  lemma ApplyFiltersSelectsExactly(rows: seq<Trip>, month: string, day: string)
    requires ApplyFilters(rows, month, day).Success?
    ensures SelectsExactly(ApplyFilters(rows, month, day).value, rows, (t: Trip) => Keeps(t, month, day))
  {
    var keep := (t: Trip) => Keeps(t, month, day);
    var out := ApplyFilters(rows, month, day).value;
    assert out == Filter(rows, keep) by {
      if Lower(month) == "all" {
        if Lower(day) == "all" {
          FilterKeepsAll(rows, keep);
        } else {
          FilterSamePredicate(rows, DayMask(day), keep);
        }
      } else {
        var n := MonthNumber(month).value;
        if Lower(day) == "all" {
          FilterSamePredicate(rows, MonthMask(n), keep);
        } else {
          FilterTwice(rows, MonthMask(n), DayMask(day), keep);
        }
      }
    }
    FilterSelectsExactly(rows, keep);
  }

  /** Filtering the loader's own output again with the same choice changes nothing. */
  lemma ApplyFiltersIdempotent(rows: seq<Trip>, month: string, day: string)
    requires ApplyFilters(rows, month, day).Success?
    ensures ApplyFilters(ApplyFilters(rows, month, day).value, month, day) == ApplyFilters(rows, month, day)
  {
    var out := ApplyFilters(rows, month, day).value;
    if Lower(month) != "all" {
      var n := MonthNumber(month).value;
      FilterKeepsAll(out, MonthMask(n));
    }
    if Lower(day) != "all" {
      FilterKeepsAll(out, DayMask(day));
    }
  }

  /**
   * A selection the collector accepted never makes the loader fail, as long
   * as every file of the city table is present: the city is a table key and
   * the month is "all" or has an ordinal.
   */
  lemma ValidSelectionLoads(s: Selection, files: map<string, seq<Trip>>)
    requires IsValid(s)
    requires forall c :: c in CityData ==> CityData[c] in files
    ensures LoadData(s.city, s.month, s.day, files).Success?
  {
    ValidWordsAreLowerCase();
    LowerFixesLowerCase(s.city);
    LowerFixesLowerCase(s.month);
  }

  /**
   * A successful load returns exactly the rows of the city's file that the
   * month and day choice keeps, in file order.
   */
  lemma LoadDataSelectsExactly(city: string, month: string, day: string, files: map<string, seq<Trip>>)
    requires LoadData(city, month, day, files).Success?
    ensures Lower(city) in CityData && CityData[Lower(city)] in files
    ensures SelectsExactly(LoadData(city, month, day, files).value, files[CityData[Lower(city)]],
      (t: Trip) => Keeps(t, month, day))
  {
    ApplyFiltersSelectsExactly(files[CityData[Lower(city)]], month, day);
  }
}

=== FILE: prompts.dfy ===
/**
 * The reprompting loops of the program: read an answer, lowercase it, and
 * accept it only when it is one of a fixed list of words; otherwise print an
 * error and ask again. Console input is a finite sequence of responses, so a
 * loop either accepts one of them or runs out of input.
 */
module Prompts {
  import opened Wrappers
  import opened Ascii
  import opened Seqs

  /** The accepted (lowercased) answer and how many responses were read to get it. */
  datatype Accepted = Accepted(value: string, used: nat)

  /** Lowercased yes/no answers accepted by the raw-data prompts. */
  const YesNo: seq<string> := ["yes", "no"]

  /**
   * Reads responses until one whose lowercase form is in `valid`. The result is
   * that lowercase form, read from the `used`-th response; every response
   * before it was rejected. `None` exactly when no response is acceptable.
   */
  function ReadValidated(responses: seq<string>, valid: seq<string>): (r: Option<Accepted>)
    ensures r.Some? ==>
      && 1 <= r.value.used <= |responses|
      && r.value.value == Lower(responses[r.value.used - 1])
      && r.value.value in valid
      && (forall j :: 0 <= j < r.value.used - 1 ==> Lower(responses[j]) !in valid)
    ensures r.None? <==> forall j :: 0 <= j < |responses| ==> Lower(responses[j]) !in valid
  {
    if |responses| == 0 then None
    else
      var answer := Lower(responses[0]);
      if answer in valid then Some(Accepted(answer, 1))
      else
        match ReadValidated(responses[1..], valid)
        case None => None
        case Some(a) => Some(Accepted(a.value, a.used + 1))
  }

  /** Position `at` of the stream holds a response whose lowercase form is in `valid`. */
  predicate AcceptedAt(responses: seq<string>, valid: seq<string>, at: int) {
    0 <= at < |responses| && Lower(responses[at]) in valid
  }

  /**
   * Position `at` holds the first acceptable response after position `prev`
   * (`prev` is -1 for the start of the stream).
   */
  predicate FirstAcceptedAfter(responses: seq<string>, valid: seq<string>, prev: int, at: int) {
    && prev < at
    && AcceptedAt(responses, valid, at)
    && forall j :: prev < j < at ==> !AcceptedAt(responses, valid, j)
  }

  /**
   * A loop started at position `from` of the stream accepts the first
   * acceptable response from there on, and finds none exactly when there is
   * none left.
   */
  lemma ReadValidatedFrom(responses: seq<string>, valid: seq<string>, from: nat)
    requires from <= |responses|
    ensures ReadValidated(responses[from..], valid).Some? ==>
      var a := ReadValidated(responses[from..], valid).value;
      && FirstAcceptedAfter(responses, valid, from - 1, from + a.used - 1)
      && a.value == Lower(responses[from + a.used - 1])
    ensures ReadValidated(responses[from..], valid).None? <==>
      forall p :: from <= p ==> !AcceptedAt(responses, valid, p)
  {
    var rest := responses[from..];
    assert forall j :: 0 <= j < |rest| ==> rest[j] == responses[from + j];
    if forall p :: from <= p ==> !AcceptedAt(responses, valid, p) {
      forall j | 0 <= j < |rest|
        ensures Lower(rest[j]) !in valid
      {
        assert !AcceptedAt(responses, valid, from + j);
      }
    }
  }

  /**
   * A loop that accepts an answer reads no further: responses after the
   * accepted one do not change what it returns.
   */
  lemma {:induction false} ReadValidatedPrefix(a: seq<string>, b: seq<string>, valid: seq<string>)
    requires ReadValidated(a, valid).Some?
    ensures ReadValidated(a + b, valid) == ReadValidated(a, valid)
    ensures (a + b)[ReadValidated(a, valid).value.used..] == a[ReadValidated(a, valid).value.used..] + b
  {
    assert (a + b)[0] == a[0];
    if Lower(a[0]) !in valid {
      DropAppend(a, b, 1);
      ReadValidatedPrefix(a[1..], b, valid);
    }
    DropAppend(a, b, ReadValidated(a, valid).value.used);
  }

  /** Every response of the stream, lowercased. */
  function LowerAll(responses: seq<string>): (r: seq<string>)
    ensures |r| == |responses|
  {
    seq(|responses|, i requires 0 <= i < |responses| => Lower(responses[i]))
  }

  /** Two response sequences that differ only in letter case. */
  predicate SameUpToCase(a: seq<string>, b: seq<string>) {
    LowerAll(a) == LowerAll(b)
  }

  /** Dropping the same number of responses from both keeps them equal up to case. */
  lemma SameUpToCaseSuffix(a: seq<string>, b: seq<string>, n: nat)
    requires SameUpToCase(a, b) && n <= |a|
    ensures SameUpToCase(a[n..], b[n..])
  {
    assert LowerAll(a[n..]) == LowerAll(a)[n..];
    assert LowerAll(b[n..]) == LowerAll(b)[n..];
  }

  /** A validation loop cannot tell answers apart that differ only in case. */
  lemma {:induction false} ReadValidatedIgnoresCase(a: seq<string>, b: seq<string>, valid: seq<string>)
    requires SameUpToCase(a, b)
    ensures ReadValidated(a, valid) == ReadValidated(b, valid)
  {
    if |a| > 0 {
      assert Lower(a[0]) == LowerAll(a)[0] == LowerAll(b)[0] == Lower(b[0]);
      SameUpToCaseSuffix(a, b, 1);
      ReadValidatedIgnoresCase(a[1..], b[1..], valid);
    }
  }

  /** The accepted answers in a response stream, lowercased, in order; rejected ones are skipped. */
  function Answers(responses: seq<string>, valid: seq<string>): (r: seq<string>)
    ensures |r| <= |responses|
    ensures forall k :: 0 <= k < |r| ==> r[k] in valid
  {
    if |responses| == 0 then []
    else if Lower(responses[0]) in valid then [Lower(responses[0])] + Answers(responses[1..], valid)
    else Answers(responses[1..], valid)
  }

  /**
   * One validation loop consumes exactly the first accepted answer of the
   * stream: what remains after it yields the rest of the accepted answers.
   */
  lemma {:induction false} ReadValidatedTakesFirstAnswer(responses: seq<string>, valid: seq<string>)
    ensures ReadValidated(responses, valid).None? <==> Answers(responses, valid) == []
    ensures ReadValidated(responses, valid).Some? ==>
      var a := ReadValidated(responses, valid).value;
      Answers(responses, valid) == [a.value] + Answers(responses[a.used..], valid)
  {
    if |responses| > 0 {
      ReadValidatedTakesFirstAnswer(responses[1..], valid);
      var r := ReadValidated(responses, valid);
      if Lower(responses[0]) !in valid && r.Some? {
        assert responses[r.value.used..] == responses[1..][r.value.used - 1..];
      }
    }
  }

  /** The accepted answers of two streams read one after the other. */
  lemma {:induction false} AnswersAppend(a: seq<string>, b: seq<string>, valid: seq<string>)
    ensures Answers(a + b, valid) == Answers(a, valid) + Answers(b, valid)
  {
    if |a| == 0 {
      assert a + b == b;
    } else {
      assert (a + b)[0] == a[0];
      assert (a + b)[1..] == a[1..] + b;
      AnswersAppend(a[1..], b, valid);
    }
  }

  /** The responses one validation loop reads hold exactly one accepted answer, the one it returns. */
  lemma {:induction false} ReadValidatedReadsOne(responses: seq<string>, valid: seq<string>)
    ensures ReadValidated(responses, valid).Some? ==>
      var a := ReadValidated(responses, valid).value;
      Answers(responses[..a.used], valid) == [a.value]
  {
    if |responses| > 0 {
      var r := ReadValidated(responses, valid);
      if Lower(responses[0]) in valid {
        assert responses[..1] == [responses[0]];
        assert responses[..1][1..] == [];
      } else {
        ReadValidatedReadsOne(responses[1..], valid);
        if r.Some? {
          var used := r.value.used;
          assert responses[..used][0] == responses[0];
          assert responses[..used][1..] == responses[1..][..used - 1];
        }
      }
    }
  }

  /**
   * The first `used` responses hold exactly `n` accepted answers, and (unless
   * nothing was read) the last of them is the last response read: a reader
   * that stopped right after its `n`-th answer read exactly this much.
   */
  predicate ReadsAnswers(responses: seq<string>, valid: seq<string>, used: nat, n: nat) {
    && used <= |responses|
    && |Answers(responses[..used], valid)| == n
    && (used > 0 ==> AcceptedAt(responses, valid, used - 1))
  }

  /** The answers in a prefix of the stream are the first answers of the whole stream. */
  lemma AnswersOfPrefix(responses: seq<string>, valid: seq<string>, used: nat)
    requires used <= |responses|
    ensures
      var n := |Answers(responses[..used], valid)|;
      n <= |Answers(responses, valid)| && Answers(responses[..used], valid) == Answers(responses, valid)[..n]
  {
    assert responses == responses[..used] + responses[used..];
    AnswersAppend(responses[..used], responses[used..], valid);
  }

  /** The answers in what one validation loop and `more` further responses read. */
  lemma ReadThenMore(responses: seq<string>, valid: seq<string>, more: nat)
    requires ReadValidated(responses, valid).Some?
    requires more <= |responses[ReadValidated(responses, valid).value.used..]|
    ensures
      var a := ReadValidated(responses, valid).value;
      Answers(responses[..a.used + more], valid) == [a.value] + Answers(responses[a.used..][..more], valid)
  {
    var a := ReadValidated(responses, valid).value;
    var first := responses[..a.used];
    var next := responses[a.used..][..more];
    TakeSplit(responses, a.used, more);
    AnswersAppend(first, next, valid);
    ReadValidatedReadsOne(responses, valid);
  }

  /**
   * One validation loop followed by a reader that stopped after `n` answers
   * of the rest: together they stopped right after `n + 1` answers.
   */
  lemma ReadValidatedThenAnswers(responses: seq<string>, valid: seq<string>, more: nat, n: nat)
    requires ReadValidated(responses, valid).Some?
    requires ReadsAnswers(responses[ReadValidated(responses, valid).value.used..], valid, more, n)
    ensures ReadsAnswers(responses, valid, ReadValidated(responses, valid).value.used + more, n + 1)
  {
    var a := ReadValidated(responses, valid).value;
    var rest := responses[a.used..];
    ReadThenMore(responses, valid, more);
    if more > 0 {
      assert responses[a.used + more - 1] == rest[more - 1];
    }
  }

  /** `ReadValidatedThenAnswers` with the totals named: `used` responses read and `count` answers. */
  lemma ReadValidatedThenCounts(responses: seq<string>, valid: seq<string>, more: nat, n: nat, used: nat, count: nat)
    requires ReadValidated(responses, valid).Some?
    requires ReadsAnswers(responses[ReadValidated(responses, valid).value.used..], valid, more, n)
    requires used == ReadValidated(responses, valid).value.used + more && count == n + 1
    ensures ReadsAnswers(responses, valid, used, count)
  {
    ReadValidatedThenAnswers(responses, valid, more, n);
  }

  /**
   * A loop that accepted an answer within the first `n` responses gives the
   * same result on those `n` responses alone.
   */
  lemma ReadValidatedTake(responses: seq<string>, valid: seq<string>, n: nat)
    requires ReadValidated(responses, valid).Some?
    requires ReadValidated(responses, valid).value.used <= n <= |responses|
    ensures ReadValidated(responses[..n], valid) == ReadValidated(responses, valid)
  {
    var used := ReadValidated(responses, valid).value.used;
    assert responses[..n][used - 1] == responses[used - 1];
    ReadValidatedPrefix(responses[..n], responses[n..], valid);
    assert responses[..n] + responses[n..] == responses;
  }
}

=== FILE: scenarios.dfy ===
/**
 * Concrete sessions of the explorer: one sample round on a one-trip Chicago
 * file, answered "no", "yes", and "yes" then "no".
 */
module Scenarios {
  import opened Wrappers
  import opened Ascii
  import opened Filters
  import opened Loader
  import opened Viewer
  import opened Session

  /** A one-trip Chicago file, used by the scenarios in this module. */
  const SampleFiles: map<string, seq<Trip>> := map["chicago.csv" := [Trip(3, "Monday", 8, "Clark St", "State St")]]

  /** The input of one sample round: Chicago, every month and day, no raw data, then `answer`. */
  function SampleInput(answer: string): (responses: seq<string>)
    ensures |responses| == 5 && responses[4] == answer
  {
    ["Chicago", "all", "all", "no", answer]
  }

  /** The round that `SampleInput(answer)` plays on the sample file. */
  function SampleRound(answer: string): (round: Round)
    ensures round.restart == answer
  {
    Round(Selection("chicago", "all", "all"), SampleFiles["chicago.csv"], View([], Declined, 1), answer)
  }

  /**
   * The sample round plays the whole file, shows nothing, and takes the
   * fifth response as the restart answer, whatever it is.
   */
  lemma SampleRoundPlays(answer: string)
    ensures PlayRound(SampleInput(answer), SampleFiles) == Completed(SampleRound(answer), 5)
  {
    var responses := SampleInput(answer);
    assert Lower("Chicago") == "chicago";
    LowerFixesLowerCase("all");
    LowerFixesLowerCase("no");
    LowerFixesLowerCase("chicago");
    assert responses[1..] == ["all", "all", "no", answer];
    assert responses[1..][1..] == ["all", "no", answer];
    assert GetFilters(responses) == Some(Collected(Selection("chicago", "all", "all"), 3));
    var rows := SampleFiles["chicago.csv"];
    assert LoadData("chicago", "all", "all", SampleFiles) == Success(rows);
    assert responses[3..] == ["no", answer];
    assert DisplayData(rows, ["no", answer]) == View([], Declined, 1);
  }

  /** A restart answer of "no" ends the session after one round, whatever input follows. */
  lemma SampleQuit(rest: seq<string>)
    ensures RunSession(SampleInput("no") + rest, SampleFiles) == Run([SampleRound("no")], Quit)
  {
    SampleRoundPlays("no");
    QuitIgnoresRest(SampleInput("no"), rest, SampleFiles);
  }

  /**
   * A restart answer of "yes" plays the sample round and then a whole
   * session on the responses that follow.
   */
  lemma SampleRestart(rest: seq<string>)
    ensures RunSession(SampleInput("yes") + rest, SampleFiles)
         == Run([SampleRound("yes")] + RunSession(rest, SampleFiles).rounds,
                RunSession(rest, SampleFiles).ending)
  {
    LowerFixesLowerCase("yes");
    SampleRoundPlays("yes");
    RestartContinuesOnRest(SampleInput("yes"), rest, SampleFiles);
  }

  /** "yes" then "no": two sample rounds, then the session quits, whatever input follows. */
  lemma SampleTwoRounds(rest: seq<string>)
    ensures RunSession(SampleInput("yes") + (SampleInput("no") + rest), SampleFiles)
         == Run([SampleRound("yes"), SampleRound("no")], Quit)
  {
    var more := SampleInput("no") + rest;
    assert RunSession(more, SampleFiles) == Run([SampleRound("no")], Quit) by {
      SampleQuit(rest);
    }
    SampleRestart(more);
  }
}

=== FILE: seqs.dfy ===
/**
 * Order-preserving selection from a sequence: the shape of a pandas boolean
 * mask `df[mask]`, which keeps the rows where the mask holds, in their order.
 */
module Seqs {

  /** The elements of `s` that satisfy `p`, in their original order. */
  function Filter<T>(s: seq<T>, p: T -> bool): (r: seq<T>)
    ensures |r| <= |s|
    ensures forall k :: 0 <= k < |r| ==> p(r[k]) && r[k] in s
  {
    if |s| == 0 then []
    else if p(s[0]) then [s[0]] + Filter(s[1..], p)
    else Filter(s[1..], p)
  }

  /** The positions `i >= from` of `s` whose element satisfies `p`, ascending. */
  function Positions<T>(s: seq<T>, p: T -> bool, from: nat): (idx: seq<nat>)
    requires from <= |s|
    ensures forall k :: 0 <= k < |idx| ==> from <= idx[k] < |s| && p(s[idx[k]])
    ensures forall i, j :: 0 <= i < j < |idx| ==> idx[i] < idx[j]
    decreases |s| - from
  {
    if from == |s| then []
    else if p(s[from]) then [from] + Positions(s, p, from + 1)
    else Positions(s, p, from + 1)
  }

  /** `idx` maps each position of `a` to a position of `b` holding the same element, ascending. */
  ghost predicate Embeds<T>(idx: seq<nat>, a: seq<T>, b: seq<T>) {
    && |idx| == |a|
    && (forall k :: 0 <= k < |idx| ==> idx[k] < |b| && a[k] == b[idx[k]])
    && (forall i, j :: 0 <= i < j < |idx| ==> idx[i] < idx[j])
  }

  /**
   * `a` is the subsequence of `b` made of exactly the positions whose element
   * satisfies `p`: every such position is used, and no other.
   */
  ghost predicate SelectsExactly<T>(a: seq<T>, b: seq<T>, p: T -> bool) {
    exists idx :: Embeds(idx, a, b) && forall i :: 0 <= i < |b| ==> (i in idx <==> p(b[i]))
  }

  /** Every satisfying position at or after `from` is listed by `Positions`. */
  lemma {:induction false} PositionsComplete<T>(s: seq<T>, p: T -> bool, from: nat)
    requires from <= |s|
    ensures forall i :: from <= i < |s| ==> (i in Positions(s, p, from) <==> p(s[i]))
    decreases |s| - from
  {
    if from < |s| {
      PositionsComplete(s, p, from + 1);
    }
  }

  /** Element `k` of the filtered suffix is the element of `s` at the `k`-th satisfying position. */
  lemma {:induction false} FilterAtPositions<T>(s: seq<T>, p: T -> bool, from: nat)
    requires from <= |s|
    ensures Embeds(Positions(s, p, from), Filter(s[from..], p), s)
    decreases |s| - from
  {
    if from < |s| {
      assert s[from..][0] == s[from];
      assert s[from..][1..] == s[from + 1..];
      FilterAtPositions(s, p, from + 1);
    }
  }

  /** `Filter` keeps exactly the satisfying elements, in order. */
  lemma FilterSelectsExactly<T>(s: seq<T>, p: T -> bool)
    ensures SelectsExactly(Filter(s, p), s, p)
  {
    assert s[0..] == s;
    FilterAtPositions(s, p, 0);
    PositionsComplete(s, p, 0);
    var idx := Positions(s, p, 0);
    assert Embeds(idx, Filter(s, p), s);
  }

  /** Each element occurs in the filtered sequence as often as in `s` if it satisfies `p`, else never. */
  lemma {:induction false} FilterMultiplicity<T>(s: seq<T>, p: T -> bool, x: T)
    ensures multiset(Filter(s, p))[x] == if p(x) then multiset(s)[x] else 0
  {
    if |s| > 0 {
      FilterMultiplicity(s[1..], p, x);
      assert s == [s[0]] + s[1..];
    }
  }

  /** Filtering takes each element at most as often as `s` holds it. */
  lemma FilterSubMultiset<T>(s: seq<T>, p: T -> bool)
    ensures multiset(Filter(s, p)) <= multiset(s)
  {
    forall x | true
      ensures multiset(Filter(s, p))[x] <= multiset(s)[x]
    {
      FilterMultiplicity(s, p, x);
    }
  }

  /** When every element satisfies `p`, filtering returns the sequence unchanged. */
  lemma {:induction false} FilterKeepsAll<T>(s: seq<T>, p: T -> bool)
    requires forall k :: 0 <= k < |s| ==> p(s[k])
    ensures Filter(s, p) == s
  {
    if |s| > 0 {
      FilterKeepsAll(s[1..], p);
      assert s == [s[0]] + s[1..];
    }
  }

  /** Filtering depends only on which elements the predicate accepts. */
  lemma {:induction false} FilterSamePredicate<T>(s: seq<T>, p: T -> bool, q: T -> bool)
    requires forall x :: p(x) == q(x)
    ensures Filter(s, p) == Filter(s, q)
  {
    if |s| > 0 {
      FilterSamePredicate(s[1..], p, q);
    }
  }

  /** Filtering a filtered sequence again by the same predicate changes nothing. */
  lemma FilterIdempotent<T>(s: seq<T>, p: T -> bool)
    ensures Filter(Filter(s, p), p) == Filter(s, p)
  {
  }

  /** Filtering by `p` and then by `q` is filtering once by their conjunction `pq`. */
  lemma {:induction false} FilterTwice<T>(s: seq<T>, p: T -> bool, q: T -> bool, pq: T -> bool)
    requires forall x :: pq(x) == (p(x) && q(x))
    ensures Filter(Filter(s, p), q) == Filter(s, pq)
  {
    if |s| > 0 {
      FilterTwice(s[1..], p, q, pq);
      if p(s[0]) {
        assert Filter(s, p) == [s[0]] + Filter(s[1..], p);
        assert Filter(s, p)[1..] == Filter(s[1..], p);
      }
    }
  }

  /** The first `m + n` elements are the first `m` followed by the next `n`. */
  lemma TakeSplit<T>(s: seq<T>, m: nat, n: nat)
    requires m + n <= |s|
    ensures s[..m + n] == s[..m] + s[m..][..n]
  {
    assert forall k :: 0 <= k < m + n ==> s[..m + n][k] == (s[..m] + s[m..][..n])[k];
  }

  /** Dropping a prefix of `a` from `a + b` leaves the rest of `a` followed by `b`. */
  lemma DropAppend<T>(a: seq<T>, b: seq<T>, n: nat)
    requires n <= |a|
    ensures (a + b)[n..] == a[n..] + b
  {
    assert forall k :: 0 <= k < |a| - n + |b| ==> (a + b)[n..][k] == (a[n..] + b)[k];
  }

  /** Cutting `s` after `n` elements and then dropping `m` is dropping `m` and then keeping `n - m`. */
  lemma TakeDrop<T>(s: seq<T>, m: nat, n: nat)
    requires m <= n <= |s|
    ensures s[..n][m..] == s[m..][..n - m]
  {
  }

  /** Cutting `s` after `n` elements and putting the two parts back together gives `s`. */
  lemma TakeThenDrop<T>(s: seq<T>, n: nat)
    requires n <= |s|
    ensures s[..n] + s[n..] == s
  {
  }
}

=== FILE: session.dfy ===
/**
 * The session controller (`main`): collect a selection, load and filter the
 * city's trips, run the reports and the raw-data viewer, then ask whether to
 * restart. Only an answer that lowercases to exactly "yes" starts another
 * round; the restart answer is not validated, so anything else ends the
 * session.
 */
module Session {
  import opened Wrappers
  import opened Ascii
  import opened Filters
  import opened Loader
  import opened Viewer
  import opened Seqs

  /** One completed round: the selection, the filtered rows, what the viewer did, the restart answer. */
  datatype Round = Round(selection: Selection, rows: seq<Trip>, view: View<Trip>, restart: string)

  /** Why the session stopped. */
  datatype SessionEnd =
    | Quit                        // a restart answer other than "yes"
    | InputEnded                  // the input ran out at some prompt
    | LoadFailed(error: LoadError) // `load_data` raised
    | NoRows                      // the first report looked up the mode of an empty selection

  /** The completed rounds in order and why the session stopped. */
  datatype Run = Run(rounds: seq<Round>, ending: SessionEnd)

  /** True when a restart answer asks for another round. */
  predicate WantsRestart(answer: string) {
    Lower(answer) == "yes"
  }

  /** A round whose selection passed the prompts and whose rows are what loading it gives. */
  predicate Played(r: Round, files: map<string, seq<Trip>>) {
    && IsValid(r.selection)
    && LoadData(r.selection.city, r.selection.month, r.selection.day, files) == Success(r.rows)
  }

  /** Every round but the last was followed by a restart request. */
  predicate RestartedBetween(rounds: seq<Round>) {
    forall k :: 0 <= k < |rounds| - 1 ==> WantsRestart(rounds[k].restart)
  }

  /** Every round was played from a valid selection and its loaded rows. */
  predicate AllPlayed(rounds: seq<Round>, files: map<string, seq<Trip>>) {
    forall k :: 0 <= k < |rounds| ==> Played(rounds[k], files)
  }

  /**
   * What a session run promises: every round was played from a valid
   * selection, every round but the last asked to restart, and the session
   * quit exactly when the last round's answer was not "yes".
   */
  predicate Consistent(s: Run, files: map<string, seq<Trip>>) {
    && AllPlayed(s.rounds, files)
    && RestartedBetween(s.rounds)
    && (s.ending == Quit <==> |s.rounds| > 0 && !WantsRestart(s.rounds[|s.rounds| - 1].restart))
  }

  /** A round followed by "yes" extends a consistent run. */
  lemma ConsistentCons(round: Round, next: Run, files: map<string, seq<Trip>>)
    requires Played(round, files) && WantsRestart(round.restart) && Consistent(next, files)
    ensures Consistent(Run([round] + next.rounds, next.ending), files)
  {
    var all := [round] + next.rounds;
    AllPlayedCons(round, next.rounds, files);
    assert AllPlayed(all, files);
    RestartedBetweenCons(round, next.rounds);
    assert RestartedBetween(all);
    assert all[|all| - 1] == if |next.rounds| == 0 then round else next.rounds[|next.rounds| - 1];
  }

  /** Prepending a played round keeps every round played. */
  lemma AllPlayedCons(round: Round, rounds: seq<Round>, files: map<string, seq<Trip>>)
    requires Played(round, files) && AllPlayed(rounds, files)
    ensures AllPlayed([round] + rounds, files)
  {
    var all := [round] + rounds;
    forall k | 0 <= k < |all|
      ensures Played(all[k], files)
    {
      if k > 0 {
        assert all[k] == rounds[k - 1];
      }
    }
  }

  /** Prepending a round that asked to restart keeps the restart invariant. */
  lemma RestartedBetweenCons(round: Round, rounds: seq<Round>)
    requires WantsRestart(round.restart) && RestartedBetween(rounds)
    ensures RestartedBetween([round] + rounds)
  {
    var all := [round] + rounds;
    forall k | 0 <= k < |all| - 1
      ensures WantsRestart(all[k].restart)
    {
      if k > 0 {
        assert all[k] == rounds[k - 1];
      }
    }
  }

  /** A round either completes, having read `used` responses, or stops the session. */
  datatype Outcome = Completed(round: Round, used: nat) | Stopped(ending: SessionEnd)

  /**
   * One pass of the loop body in `main`: collect, load, view, then read the
   * restart answer. The reports print only and leave no state; what remains
   * of them is that the first one takes element 0 of the month column's
   * modes, which does not exist when no row was selected, so an empty
   * selection stops the session before the viewer.
   */
  function PlayRound(responses: seq<string>, files: map<string, seq<Trip>>): (o: Outcome)
    ensures o.Completed? ==> 1 <= o.used <= |responses| && o.round.restart == responses[o.used - 1]
    ensures o.Completed? ==> Played(o.round, files)
    ensures o.Completed? ==> GetFilters(responses).Some?
    ensures o.Completed? ==> o.round.selection == GetFilters(responses).value.selection
    ensures o.Stopped? ==> o.ending != Quit
    ensures o.Completed? ==> |o.round.rows| > 0
  {
    var c := GetFilters(responses);
    if c.None? then Stopped(InputEnded)
    else
      var o := LoadAndView(c.value, responses, files);
      assert o.Completed? ==> 1 <= o.used <= |responses| && o.round.restart == responses[o.used - 1];
      assert o.Completed? ==> Played(o.round, files) && |o.round.rows| > 0;
      assert o.Completed? ==> o.round.selection == c.value.selection;
      o
  }

  /**
   * The round after `get_filters` returned `c`: load the selection, stop on
   * an error or an empty selection, otherwise view the rows and ask whether
   * to restart.
   */
  function LoadAndView(c: Collected, responses: seq<string>, files: map<string, seq<Trip>>): (o: Outcome)
    requires IsValid(c.selection) && c.used <= |responses|
    ensures o.Completed? ==> c.used < o.used <= |responses| && o.round.restart == responses[o.used - 1]
    ensures o.Completed? ==> o.round.selection == c.selection
    ensures o.Completed? ==> Played(o.round, files)
    ensures o.Completed? ==> |o.round.rows| > 0
    ensures o.Stopped? ==> o.ending != Quit
  {
    var sel := c.selection;
    match LoadData(sel.city, sel.month, sel.day, files)
    case Failure(e) => Stopped(LoadFailed(e))
    case Success(rows) =>
      if |rows| == 0 then Stopped(NoRows)
      else ViewAndAsk(sel, rows, responses, c.used)
  }

  /**
   * The end of a round: the viewer reads from position `start` of the
   * responses, and the next response is the restart answer.
   */
  function ViewAndAsk(sel: Selection, rows: seq<Trip>, responses: seq<string>, start: nat): (o: Outcome)
    requires start <= |responses|
    ensures o.Completed? ==>
      && start < o.used <= |responses|
      && o.round == Round(sel, rows, o.round.view, responses[o.used - 1])
    ensures o.Stopped? ==> o.ending == InputEnded
  {
    var v := DisplayData(rows, responses[start..]);
    var restartAt := start + v.used;
    if restartAt == |responses| then Stopped(InputEnded)
    else Completed(Round(sel, rows, v, responses[restartAt]), restartAt + 1)
  }

  /**
   * The view of a round is `display_data` on the responses from `start` on,
   * and the restart answer is the response right after it; the round stops
   * exactly when the viewer used up the input.
   */
  lemma ViewAndAskSteps(sel: Selection, rows: seq<Trip>, responses: seq<string>, start: nat)
    requires start <= |responses|
    ensures ViewAndAsk(sel, rows, responses, start).Stopped? <==>
      start + DisplayData(rows, responses[start..]).used == |responses|
    ensures ViewAndAsk(sel, rows, responses, start).Completed? ==>
      var o := ViewAndAsk(sel, rows, responses, start);
      && o.round.view == DisplayData(rows, responses[start..])
      && o.used == start + o.round.view.used + 1
  {
  }

  /**
   * The `while True` loop of `main` over the response stream, against the
   * parsed city files `files`. Every round but the last was followed by a
   * "yes"; the session quits exactly when the last completed round's answer
   * was not "yes".
   */
  function RunSession(responses: seq<string>, files: map<string, seq<Trip>>): (s: Run)
    ensures Consistent(s, files)
    ensures PlayRound(responses, files).Stopped? ==> s == Run([], PlayRound(responses, files).ending)
    ensures PlayRound(responses, files).Completed? ==> |s.rounds| > 0 && s.rounds[0] == PlayRound(responses, files).round
    decreases |responses|
  {
    match PlayRound(responses, files)
    case Stopped(e) => Run([], e)
    case Completed(round, used) =>
      if WantsRestart(round.restart) then
        var next := RunSession(responses[used..], files);
        ConsistentCons(round, next, files);
        assert ([round] + next.rounds)[0] == round;
        Run([round] + next.rounds, next.ending)
      else Run([round], Quit)
  }

  /**
   * A completed round plays the selection `get_filters` returned, views its
   * rows with the responses that follow, and reads the restart answer right
   * after the viewer.
   */
  lemma PlayRoundSteps(responses: seq<string>, files: map<string, seq<Trip>>)
    ensures PlayRound(responses, files).Completed? ==>
      var o := PlayRound(responses, files);
      var c := GetFilters(responses);
      && c.Some? && o.round.selection == c.value.selection
      && o.round.view == DisplayData(o.round.rows, responses[c.value.used..])
      && o.used == c.value.used + o.round.view.used + 1
  {
  }

  /**
   * Why a round stops: on missing input exactly when `get_filters` or the
   * restart prompt runs out, on a loading error exactly when loading the
   * selection fails, and with no rows exactly when the selection keeps none.
   */
  lemma PlayRoundStops(responses: seq<string>, files: map<string, seq<Trip>>)
    ensures GetFilters(responses).None? ==> PlayRound(responses, files) == Stopped(InputEnded)
    ensures GetFilters(responses).Some? ==>
      var o := PlayRound(responses, files);
      var c := GetFilters(responses).value;
      var loaded := LoadData(c.selection.city, c.selection.month, c.selection.day, files);
      && (loaded.Failure? <==> o.Stopped? && o.ending.LoadFailed?)
      && (loaded.Failure? ==> o == Stopped(LoadFailed(loaded.error)))
      && (loaded == Success([]) <==> o == Stopped(NoRows))
      && (o == Stopped(InputEnded) <==>
            loaded.Success? && loaded.value != []
            && c.used + DisplayData(loaded.value, responses[c.used..]).used == |responses|)
  {
  }

  /** Every file the city table names has been read. */
  predicate AllFilesPresent(files: map<string, seq<Trip>>) {
    forall c :: c in CityData ==> CityData[c] in files
  }

  /** With every city file present, a round never stops on a loading error. */
  lemma PlayRoundLoads(responses: seq<string>, files: map<string, seq<Trip>>)
    requires AllFilesPresent(files)
    ensures !PlayRound(responses, files).Stopped? || !PlayRound(responses, files).ending.LoadFailed?
  {
    var c := GetFilters(responses);
    if c.Some? {
      ValidSelectionLoads(c.value.selection, files);
    }
  }

  /**
   * With every city file present, the city lookup and the month parse in
   * `load_data` never fail on what the prompts accepted.
   */
  lemma {:induction false} SessionNeverFailsToLoad(responses: seq<string>, files: map<string, seq<Trip>>)
    requires AllFilesPresent(files)
    ensures !RunSession(responses, files).ending.LoadFailed?
    decreases |responses|
  {
    PlayRoundLoads(responses, files);
    match PlayRound(responses, files)
    case Stopped(e) =>
    case Completed(round, used) =>
      if WantsRestart(round.restart) {
        SessionNeverFailsToLoad(responses[used..], files);
      }
  }

  /**
   * The end of a round reads nothing past the restart answer: responses
   * after it do not change the round.
   */
  lemma ViewAndAskPrefix(sel: Selection, rows: seq<Trip>, a: seq<string>, b: seq<string>, start: nat)
    requires start <= |a|
    requires ViewAndAsk(sel, rows, a, start).Completed?
    ensures ViewAndAsk(sel, rows, a + b, start) == ViewAndAsk(sel, rows, a, start)
  {
    DropAppend(a, b, start);
    DisplayDataUnanswered(rows, a[start..]);
    DisplayDataPrefix(rows, a[start..], b);
  }

  /**
   * A round reads nothing past its restart answer: the responses after it do
   * not change the round.
   */
  lemma PlayRoundPrefix(a: seq<string>, b: seq<string>, files: map<string, seq<Trip>>)
    requires PlayRound(a, files).Completed?
    ensures PlayRound(a + b, files) == PlayRound(a, files)
  {
    CollectPrefix(a, b, ValidCities, ValidMonths, ValidDays);
    var c := GetFilters(a).value;
    var sel := c.selection;
    ViewAndAskPrefix(sel, LoadData(sel.city, sel.month, sel.day, files).value, a, b, c.used);
  }

  /**
   * Cutting the input anywhere after the restart answer leaves the end of
   * the round unchanged: the viewer and the restart prompt read only what
   * comes before it.
   */
  lemma ViewAndAskTake(sel: Selection, rows: seq<Trip>, responses: seq<string>, start: nat, n: nat)
    requires start <= |responses|
    requires ViewAndAsk(sel, rows, responses, start).Completed?
    requires ViewAndAsk(sel, rows, responses, start).used <= n <= |responses|
    ensures ViewAndAsk(sel, rows, responses[..n], start) == ViewAndAsk(sel, rows, responses, start)
  {
    var v := DisplayData(rows, responses[start..]);
    ViewAndAskSteps(sel, rows, responses, start);
    DisplayDataUnanswered(rows, responses[start..]);
    DisplayDataTakeFrom(rows, responses, start, n);
    assert responses[..n][start + v.used] == responses[start + v.used];
  }

  /**
   * A round is decided by the responses up to its restart answer: cutting
   * the input anywhere after that answer gives the same round.
   */
  lemma PlayRoundTake(responses: seq<string>, files: map<string, seq<Trip>>, n: nat)
    requires PlayRound(responses, files).Completed?
    requires PlayRound(responses, files).used <= n <= |responses|
    ensures PlayRound(responses[..n], files) == PlayRound(responses, files)
  {
    var c := GetFilters(responses).value;
    var sel := c.selection;
    CollectTake(responses, ValidCities, ValidMonths, ValidDays, n);
    ViewAndAskTake(sel, LoadData(sel.city, sel.month, sel.day, files).value, responses, c.used, n);
  }

  /**
   * The converse of `PlayRoundPrefix`: a completed round is played the same
   * on the responses it used alone, so those responses are exactly one
   * complete round.
   */
  lemma PlayRoundFirstRound(responses: seq<string>, files: map<string, seq<Trip>>)
    ensures PlayRound(responses, files).Completed? ==>
      PlayRound(responses[..PlayRound(responses, files).used], files) == PlayRound(responses, files)
  {
    var o := PlayRound(responses, files);
    if o.Completed? {
      PlayRoundTake(responses, files, o.used);
    }
  }

  /**
   * "yes" restarts: when `first` is one complete round whose restart answer
   * lowercases to "yes", the session on `first` followed by any `rest` is
   * that round followed by a fresh session on `rest`.
   */
  lemma RestartContinuesOnRest(first: seq<string>, rest: seq<string>, files: map<string, seq<Trip>>)
    requires PlayRound(first, files).Completed? && PlayRound(first, files).used == |first|
    requires WantsRestart(PlayRound(first, files).round.restart)
    ensures RunSession(first + rest, files)
         == Run([PlayRound(first, files).round] + RunSession(rest, files).rounds, RunSession(rest, files).ending)
  {
    PlayRoundPrefix(first, rest, files);
    assert (first + rest)[|first|..] == rest;
  }

  /**
   * Any other answer quits: when `first` is one complete round whose restart
   * answer is not "yes" in any case, the session ends with that one round,
   * whatever input follows.
   */
  lemma QuitIgnoresRest(first: seq<string>, rest: seq<string>, files: map<string, seq<Trip>>)
    requires PlayRound(first, files).Completed? && PlayRound(first, files).used == |first|
    requires !WantsRestart(PlayRound(first, files).round.restart)
    ensures RunSession(first + rest, files) == Run([PlayRound(first, files).round], Quit)
  {
    PlayRoundPrefix(first, rest, files);
  }
}

=== FILE: viewer.dfy ===
/**
 * The paginated viewer (`display_data`). It asks yes/no until a valid answer;
 * on each "yes" it shows the next window of five rows, but only while the
 * window's end does not pass the last row: a window that would overrun ends
 * the viewing with "No more data to display." instead of showing the rest.
 */
module Viewer {
  import opened Wrappers
  import opened Ascii
  import opened Prompts
  import Seqs

  /** Why the viewer stopped. */
  datatype ViewEnd =
    | Declined      // the user answered "no"
    | NoMoreData    // a "yes" asked for a window past the end of the rows
    | Unanswered    // the input ran out while a yes/no prompt was waiting

  /** The windows shown, in order, why viewing stopped, and how many responses it read. */
  datatype View<T> = View(shown: seq<seq<T>>, ending: ViewEnd, used: nat)

  /** The number of windows that fit completely in `n` rows. */
  function FullPages(n: nat): (pages: nat) {
    n / 5
  }

  /** Window `i` of the rows: rows `[5 * i, 5 * i + 5)`. */
  function Window<T>(rows: seq<T>, i: nat): (w: seq<T>)
    requires 5 * i + 5 <= |rows|
    ensures |w| == 5
    ensures forall k :: 0 <= k < 5 ==> w[k] == rows[5 * i + k]
  {
    rows[5 * i .. 5 * i + 5]
  }

  /**
   * The viewing loop after a "yes", about to show window `page`, i.e. rows
   * `[5 * page, 5 * page + 5)`.
   */
  function ShowFrom<T>(rows: seq<T>, page: nat, responses: seq<string>): (v: View<T>)
    requires page <= FullPages(|rows|)
    ensures v.used <= |responses|
    ensures page + |v.shown| <= FullPages(|rows|)
    ensures forall k :: 0 <= k < |v.shown| ==> v.shown[k] == Window(rows, page + k)
    ensures v.ending == NoMoreData ==> page + |v.shown| == FullPages(|rows|)
    decreases |rows| - 5 * page
  {
    if 5 * page + 5 > |rows| then
      assert page == FullPages(|rows|);
      View([], NoMoreData, 0)
    else
      assert page + 1 <= FullPages(|rows|);
      var window := Window(rows, page);
      match ReadValidated(responses, YesNo)
      case None => View([window], Unanswered, |responses|)
      case Some(a) =>
        if a.value == "yes" then
          var rest := ShowFrom(rows, page + 1, responses[a.used..]);
          View([window] + rest.shown, rest.ending, a.used + rest.used)
        else View([window], Declined, a.used)
  }

  /**
   * `display_data`: the first yes/no prompt, then the viewing loop from the
   * first window. Every shown window is a full, consecutive slice of five
   * rows, at most `|rows| / 5` of them, and running out of rows is reported
   * only once all full windows have been shown.
   */
  function DisplayData<T>(rows: seq<T>, responses: seq<string>): (v: View<T>)
    ensures v.used <= |responses|
    ensures 5 * |v.shown| <= |rows|
    ensures forall k :: 0 <= k < |v.shown| ==>
      |v.shown[k]| == 5 && v.shown[k] == rows[5 * k .. 5 * k + 5]
    ensures v.ending == NoMoreData ==> |v.shown| == FullPages(|rows|)
  {
    match ReadValidated(responses, YesNo)
    case None => View([], Unanswered, |responses|)
    case Some(a) =>
      if a.value == "yes" then
        var v := ShowFrom(rows, 0, responses[a.used..]);
        View(v.shown, v.ending, a.used + v.used)
      else View([], Declined, a.used)
  }

  /** The viewing loop is left waiting for an answer only once every response has been read. */
  lemma {:induction false} ShowFromUnanswered<T>(rows: seq<T>, page: nat, responses: seq<string>)
    requires page <= FullPages(|rows|)
    ensures ShowFrom(rows, page, responses).ending == Unanswered ==> ShowFrom(rows, page, responses).used == |responses|
    decreases |rows| - 5 * page
  {
    if 5 * page + 5 <= |rows| {
      assert page + 1 <= FullPages(|rows|);
      var r := ReadValidated(responses, YesNo);
      if r.Some? && r.value.value == "yes" {
        ShowFromUnanswered(rows, page + 1, responses[r.value.used..]);
      }
    }
  }

  /** `display_data` is left waiting for an answer only once every response has been read. */
  lemma DisplayDataUnanswered<T>(rows: seq<T>, responses: seq<string>)
    ensures DisplayData(rows, responses).ending == Unanswered ==> DisplayData(rows, responses).used == |responses|
  {
    var r := ReadValidated(responses, YesNo);
    if r.Some? && r.value.value == "yes" {
      ShowFromUnanswered(rows, 0, responses[r.value.used..]);
    }
  }

  /**
   * The viewing loop reads nothing past the answer that ends it: unless it
   * was still waiting for an answer, later responses change nothing.
   */
  lemma {:induction false} ShowFromPrefix<T>(rows: seq<T>, page: nat, a: seq<string>, b: seq<string>)
    requires page <= FullPages(|rows|)
    requires ShowFrom(rows, page, a).ending != Unanswered
    ensures ShowFrom(rows, page, a + b) == ShowFrom(rows, page, a)
    decreases |rows| - 5 * page
  {
    if 5 * page + 5 <= |rows| {
      ShowFromAnswered(rows, page, a);
      ReadValidatedPrefix(a, b, YesNo);
      var r := ReadValidated(a, YesNo).value;
      if r.value == "yes" {
        ShowFromPrefix(rows, page + 1, a[r.used..], b);
        ShowFromPrefixStep(rows, page, a, b);
      } else {
        ShowFromPrefixStop(rows, page, a, b);
      }
    } else {
      ShowFromPrefixAtEnd(rows, page, a, b);
    }
  }

  /** A window that fits is only left behind with an answer in hand. */
  lemma ShowFromAnswered<T>(rows: seq<T>, page: nat, a: seq<string>)
    requires 5 * page + 5 <= |rows|
    requires ShowFrom(rows, page, a).ending != Unanswered
    ensures ReadValidated(a, YesNo).Some?
  {
    assert page + 1 <= FullPages(|rows|);
  }

  /** Past the last full window the loop reads nothing at all. */
  lemma ShowFromPrefixAtEnd<T>(rows: seq<T>, page: nat, a: seq<string>, b: seq<string>)
    requires page <= FullPages(|rows|) && 5 * page + 5 > |rows|
    ensures ShowFrom(rows, page, a + b) == ShowFrom(rows, page, a)
  {
  }

  /** A "no" ends the loop with nothing further read. */
  lemma ShowFromPrefixStop<T>(rows: seq<T>, page: nat, a: seq<string>, b: seq<string>)
    requires 5 * page + 5 <= |rows|
    requires ReadValidated(a, YesNo).Some? && ReadValidated(a, YesNo).value.value != "yes"
    requires ReadValidated(a + b, YesNo) == ReadValidated(a, YesNo)
    ensures ShowFrom(rows, page, a + b) == ShowFrom(rows, page, a)
  {
    assert page + 1 <= FullPages(|rows|);
  }

  /** One "yes" step: if the loop from the next window ignores `b`, so does this window's. */
  lemma ShowFromPrefixStep<T>(rows: seq<T>, page: nat, a: seq<string>, b: seq<string>)
    requires 5 * page + 5 <= |rows|
    requires ReadValidated(a, YesNo).Some? && ReadValidated(a, YesNo).value.value == "yes"
    requires ReadValidated(a + b, YesNo) == ReadValidated(a, YesNo)
    requires (a + b)[ReadValidated(a, YesNo).value.used..] == a[ReadValidated(a, YesNo).value.used..] + b
    requires ShowFrom(rows, page + 1, a[ReadValidated(a, YesNo).value.used..] + b)
          == ShowFrom(rows, page + 1, a[ReadValidated(a, YesNo).value.used..])
    ensures ShowFrom(rows, page, a + b) == ShowFrom(rows, page, a)
  {
    assert page + 1 <= FullPages(|rows|);
  }

  /** `display_data` reads nothing past the answer that ends it, unless the input ran out. */
  lemma DisplayDataPrefix<T>(rows: seq<T>, a: seq<string>, b: seq<string>)
    requires DisplayData(rows, a).ending != Unanswered
    ensures DisplayData(rows, a + b) == DisplayData(rows, a)
  {
    DisplayDataAnswered(rows, a);
    ReadValidatedPrefix(a, b, YesNo);
    var r := ReadValidated(a, YesNo).value;
    if r.value == "yes" {
      ShowFromPrefix(rows, 0, a[r.used..], b);
      DisplayDataPrefixStep(rows, a, b);
    } else {
      DisplayDataPrefixStop(rows, a, b);
    }
  }

  /** A first "no" ends `display_data` with nothing further read. */
  lemma DisplayDataPrefixStop<T>(rows: seq<T>, a: seq<string>, b: seq<string>)
    requires ReadValidated(a, YesNo).Some? && ReadValidated(a, YesNo).value.value != "yes"
    requires ReadValidated(a + b, YesNo) == ReadValidated(a, YesNo)
    ensures DisplayData(rows, a + b) == DisplayData(rows, a)
  {
  }

  /** After a first "yes": if the viewing loop ignores `b`, so does `display_data`. */
  lemma DisplayDataPrefixStep<T>(rows: seq<T>, a: seq<string>, b: seq<string>)
    requires ReadValidated(a, YesNo).Some? && ReadValidated(a, YesNo).value.value == "yes"
    requires ReadValidated(a + b, YesNo) == ReadValidated(a, YesNo)
    requires (a + b)[ReadValidated(a, YesNo).value.used..] == a[ReadValidated(a, YesNo).value.used..] + b
    requires ShowFrom(rows, 0, a[ReadValidated(a, YesNo).value.used..] + b)
          == ShowFrom(rows, 0, a[ReadValidated(a, YesNo).value.used..])
    ensures DisplayData(rows, a + b) == DisplayData(rows, a)
  {
  }

  /**
   * The viewing loop that stopped on an answer within the first `n`
   * responses gives the same view on those `n` responses alone.
   */
  lemma {:induction false} ShowFromTake<T>(rows: seq<T>, page: nat, responses: seq<string>, n: nat)
    requires page <= FullPages(|rows|)
    requires ShowFrom(rows, page, responses).ending != Unanswered
    requires ShowFrom(rows, page, responses).used <= n <= |responses|
    ensures ShowFrom(rows, page, responses[..n]) == ShowFrom(rows, page, responses)
    decreases |rows| - 5 * page
  {
    if 5 * page + 5 <= |rows| {
      ShowFromAnswered(rows, page, responses);
      var r := ReadValidated(responses, YesNo).value;
      if r.value == "yes" {
        ShowFromYes(rows, page, responses);
        ShowFromTake(rows, page + 1, responses[r.used..], n - r.used);
        ShowFromTakeStep(rows, page, responses, n);
      } else {
        ShowFromTakeStop(rows, page, responses, n);
      }
    } else {
      ShowFromTakeAtEnd(rows, page, responses, n);
    }
  }

  /** After a "yes", the loop goes on from the next window with the responses after the answer. */
  lemma ShowFromYes<T>(rows: seq<T>, page: nat, responses: seq<string>)
    requires 5 * page + 5 <= |rows|
    requires ReadValidated(responses, YesNo).Some? && ReadValidated(responses, YesNo).value.value == "yes"
    ensures page + 1 <= FullPages(|rows|)
    ensures var used := ReadValidated(responses, YesNo).value.used;
            && ShowFrom(rows, page, responses).ending == ShowFrom(rows, page + 1, responses[used..]).ending
            && ShowFrom(rows, page, responses).used == used + ShowFrom(rows, page + 1, responses[used..]).used
            && |ShowFrom(rows, page, responses).shown| == 1 + |ShowFrom(rows, page + 1, responses[used..]).shown|
  {
    assert page + 1 <= FullPages(|rows|);
  }

  /** Past the last full window nothing is read, whatever the input. */
  lemma ShowFromTakeAtEnd<T>(rows: seq<T>, page: nat, responses: seq<string>, n: nat)
    requires page <= FullPages(|rows|) && 5 * page + 5 > |rows| && n <= |responses|
    ensures ShowFrom(rows, page, responses[..n]) == ShowFrom(rows, page, responses)
  {
  }

  /** A "no" read within the first `n` responses ends the loop the same way on them alone. */
  lemma ShowFromTakeStop<T>(rows: seq<T>, page: nat, responses: seq<string>, n: nat)
    requires 5 * page + 5 <= |rows| && n <= |responses|
    requires ReadValidated(responses, YesNo).Some? && ReadValidated(responses, YesNo).value.value != "yes"
    requires ReadValidated(responses, YesNo).value.used <= n
    ensures ShowFrom(rows, page, responses[..n]) == ShowFrom(rows, page, responses)
  {
    assert page + 1 <= FullPages(|rows|);
    ReadValidatedTake(responses, YesNo, n);
  }

  /** One "yes" step: if the loop from the next window gives the same view on the cut input, so does this one. */
  lemma ShowFromTakeStep<T>(rows: seq<T>, page: nat, responses: seq<string>, n: nat)
    requires 5 * page + 5 <= |rows| && n <= |responses|
    requires ReadValidated(responses, YesNo).Some? && ReadValidated(responses, YesNo).value.value == "yes"
    requires ReadValidated(responses, YesNo).value.used <= n
    requires ShowFrom(rows, page + 1, responses[ReadValidated(responses, YesNo).value.used..][..n - ReadValidated(responses, YesNo).value.used])
          == ShowFrom(rows, page + 1, responses[ReadValidated(responses, YesNo).value.used..])
    ensures ShowFrom(rows, page, responses[..n]) == ShowFrom(rows, page, responses)
  {
    var used := ReadValidated(responses, YesNo).value.used;
    ReadValidatedTake(responses, YesNo, n);
    Seqs.TakeDrop(responses, used, n);
    ShowFromCutStep(rows, page, responses, n);
  }

  /** The "yes" step once the cut input is known to read the same answer and leave the same rest. */
  lemma ShowFromCutStep<T>(rows: seq<T>, page: nat, responses: seq<string>, n: nat)
    requires 5 * page + 5 <= |rows| && n <= |responses|
    requires ReadValidated(responses, YesNo).Some? && ReadValidated(responses, YesNo).value.value == "yes"
    requires ReadValidated(responses[..n], YesNo) == ReadValidated(responses, YesNo)
    requires ReadValidated(responses, YesNo).value.used <= n
    requires responses[..n][ReadValidated(responses, YesNo).value.used..]
          == responses[ReadValidated(responses, YesNo).value.used..][..n - ReadValidated(responses, YesNo).value.used]
    requires ShowFrom(rows, page + 1, responses[ReadValidated(responses, YesNo).value.used..][..n - ReadValidated(responses, YesNo).value.used])
          == ShowFrom(rows, page + 1, responses[ReadValidated(responses, YesNo).value.used..])
    ensures ShowFrom(rows, page, responses[..n]) == ShowFrom(rows, page, responses)
  {
    assert page + 1 <= FullPages(|rows|);
  }

  /**
   * `display_data` that stopped on an answer within the first `n` responses
   * gives the same view on those `n` responses alone.
   */
  lemma DisplayDataTake<T>(rows: seq<T>, responses: seq<string>, n: nat)
    requires DisplayData(rows, responses).ending != Unanswered
    requires DisplayData(rows, responses).used <= n <= |responses|
    ensures DisplayData(rows, responses[..n]) == DisplayData(rows, responses)
  {
    DisplayDataAnswered(rows, responses);
    var r := ReadValidated(responses, YesNo).value;
    ReadValidatedTake(responses, YesNo, n);
    if r.value == "yes" {
      Seqs.TakeDrop(responses, r.used, n);
      ShowFromTake(rows, 0, responses[r.used..], n - r.used);
      DisplayDataTakeStep(rows, responses, n);
    }
  }

  /** `DisplayDataTake` for a viewer that starts reading at position `start` of the input. */
  lemma DisplayDataTakeFrom<T>(rows: seq<T>, responses: seq<string>, start: nat, n: nat)
    requires start <= n <= |responses|
    requires DisplayData(rows, responses[start..]).ending != Unanswered
    requires start + DisplayData(rows, responses[start..]).used <= n
    ensures DisplayData(rows, responses[..n][start..]) == DisplayData(rows, responses[start..])
  {
    DisplayDataTake(rows, responses[start..], n - start);
    Seqs.TakeDrop(responses, start, n);
  }

  /** After a first "yes": if the viewing loop gives the same view on the cut input, so does `display_data`. */
  lemma DisplayDataTakeStep<T>(rows: seq<T>, responses: seq<string>, n: nat)
    requires n <= |responses|
    requires ReadValidated(responses, YesNo).Some? && ReadValidated(responses, YesNo).value.value == "yes"
    requires ReadValidated(responses[..n], YesNo) == ReadValidated(responses, YesNo)
    requires ReadValidated(responses, YesNo).value.used <= n
    requires responses[..n][ReadValidated(responses, YesNo).value.used..]
          == responses[ReadValidated(responses, YesNo).value.used..][..n - ReadValidated(responses, YesNo).value.used]
    requires ShowFrom(rows, 0, responses[ReadValidated(responses, YesNo).value.used..][..n - ReadValidated(responses, YesNo).value.used])
          == ShowFrom(rows, 0, responses[ReadValidated(responses, YesNo).value.used..])
    ensures DisplayData(rows, responses[..n]) == DisplayData(rows, responses)
  {
  }

  /** `display_data` only stops short of the end of the input with an answer in hand. */
  lemma DisplayDataAnswered<T>(rows: seq<T>, a: seq<string>)
    requires DisplayData(rows, a).ending != Unanswered
    ensures ReadValidated(a, YesNo).Some?
  {
  }

  /** How many "yes" answers open the answer stream before the first "no". */
  function LeadingYes(answers: seq<string>): (n: nat)
    ensures n <= |answers|
    ensures forall k :: 0 <= k < n ==> answers[k] == "yes"
    ensures n < |answers| ==> answers[n] != "yes"
  {
    if |answers| == 0 || answers[0] != "yes" then 0 else 1 + LeadingYes(answers[1..])
  }

  /** The smaller of `a` and `b`. */
  function Min(a: int, b: int): (m: int)
    ensures m <= a && m <= b
    ensures m == a || m == b
  {
    if a <= b then a else b
  }

  /**
   * What the viewing loop from window `page` does, in terms of the valid
   * yes/no answers alone: after showing the current window it shows one more
   * per further leading "yes" until the full windows are used up.
   */
  ghost predicate ShowsByAnswers<T>(rows: seq<T>, page: nat, responses: seq<string>)
    requires page <= FullPages(|rows|)
  {
    var v := ShowFrom(rows, page, responses);
    var answers := Answers(responses, YesNo);
    var yes := LeadingYes(answers);
    var left := FullPages(|rows|) - page;
    && |v.shown| == Min(yes + 1, left)
    && (v.ending == NoMoreData <==> left < yes + 1)
    && (v.ending == Declined <==> yes + 1 <= left && yes < |answers|)
    && (v.ending == Unanswered <==> yes + 1 <= left && yes == |answers|)
  }

  /** The viewing loop from any reachable window behaves as `ShowsByAnswers` describes. */
  lemma {:induction false} ShowFromByAnswers<T>(rows: seq<T>, page: nat, responses: seq<string>)
    requires page <= FullPages(|rows|)
    ensures ShowsByAnswers(rows, page, responses)
    decreases |rows| - 5 * page
  {
    if 5 * page + 5 > |rows| {
      ShowFromAtEnd(rows, page, responses);
    } else {
      assert page + 1 <= FullPages(|rows|);
      var r := ReadValidated(responses, YesNo);
      if r.Some? && r.value.value == "yes" {
        ShowFromByAnswers(rows, page + 1, responses[r.value.used..]);
        ShowFromStep(rows, page, responses);
      } else {
        ShowFromStop(rows, page, responses);
      }
    }
  }

  /** Past the last full window, the loop reports no more data whatever the answers. */
  lemma ShowFromAtEnd<T>(rows: seq<T>, page: nat, responses: seq<string>)
    requires page <= FullPages(|rows|) && 5 * page + 5 > |rows|
    ensures ShowsByAnswers(rows, page, responses)
  {
    assert FullPages(|rows|) == page;
  }

  /** A window that fits is shown; a "no" or the end of the input then stops the loop. */
  lemma ShowFromStop<T>(rows: seq<T>, page: nat, responses: seq<string>)
    requires 5 * page + 5 <= |rows|
    requires ReadValidated(responses, YesNo).None? || ReadValidated(responses, YesNo).value.value != "yes"
    ensures ShowsByAnswers(rows, page, responses)
  {
    assert page + 1 <= FullPages(|rows|);
    ReadValidatedTakesFirstAnswer(responses, YesNo);
  }

  /** One "yes" step of the viewing loop: the characterisation carries over from the next window. */
  lemma ShowFromStep<T>(rows: seq<T>, page: nat, responses: seq<string>)
    requires 5 * page + 5 <= |rows|
    requires ReadValidated(responses, YesNo).Some? && ReadValidated(responses, YesNo).value.value == "yes"
    requires ShowsByAnswers(rows, page + 1, responses[ReadValidated(responses, YesNo).value.used..])
    ensures ShowsByAnswers(rows, page, responses)
  {
    assert page + 1 <= FullPages(|rows|);
    ReadValidatedTakesFirstAnswer(responses, YesNo);
  }

  /**
   * What `display_data` does, in terms of the valid yes/no answers alone:
   * with `yes` leading "yes" answers it shows `min(yes, |rows| / 5)` windows;
   * it reports no more data exactly when the user asked for more windows than
   * fit; otherwise it stopped on a "no", or because the input ran out.
   */
  ghost predicate DisplaysByAnswers<T>(rows: seq<T>, responses: seq<string>) {
    var v := DisplayData(rows, responses);
    var answers := Answers(responses, YesNo);
    var yes := LeadingYes(answers);
    && |v.shown| == Min(yes, FullPages(|rows|))
    && (v.ending == NoMoreData <==> FullPages(|rows|) < yes)
    && (v.ending == Declined <==> yes <= FullPages(|rows|) && yes < |answers|)
    && (v.ending == Unanswered <==> yes <= FullPages(|rows|) && yes == |answers|)
  }

  /** `display_data` behaves as `DisplaysByAnswers` describes, for all rows and responses. */
  lemma DisplayDataByAnswers<T>(rows: seq<T>, responses: seq<string>)
    ensures DisplaysByAnswers(rows, responses)
  {
    ReadValidatedTakesFirstAnswer(responses, YesNo);
    var r := ReadValidated(responses, YesNo);
    if r.Some? && r.value.value == "yes" {
      ShowFromByAnswers(rows, 0, responses[r.value.used..]);
    }
  }

  /**
   * Unless the input ran out, the viewing loop from window `page` read
   * exactly one yes/no answer per window it showed and stopped right after
   * the last of them.
   */
  ghost predicate ShowsReadingAnswers<T>(rows: seq<T>, page: nat, responses: seq<string>)
    requires page <= FullPages(|rows|)
  {
    var v := ShowFrom(rows, page, responses);
    v.ending != Unanswered ==> ReadsAnswers(responses, YesNo, v.used, |v.shown|)
  }

  /** The viewing loop from any reachable window reads as `ShowsReadingAnswers` describes. */
  lemma {:induction false} ShowFromReadsAnswers<T>(rows: seq<T>, page: nat, responses: seq<string>)
    requires page <= FullPages(|rows|)
    ensures ShowsReadingAnswers(rows, page, responses)
    decreases |rows| - 5 * page
  {
    var r := ReadValidated(responses, YesNo);
    if 5 * page + 5 <= |rows| && r.Some? && r.value.value == "yes" {
      assert page + 1 <= FullPages(|rows|);
      ShowFromReadsAnswers(rows, page + 1, responses[r.value.used..]);
      ShowFromReadsStep(rows, page, responses);
    } else {
      ShowFromReadsStop(rows, page, responses);
    }
  }

  /**
   * Past the last full window nothing is read; after a window, a "no" is the
   * one answer read.
   */
  lemma ShowFromReadsStop<T>(rows: seq<T>, page: nat, responses: seq<string>)
    requires page <= FullPages(|rows|)
    requires 5 * page + 5 <= |rows| ==>
      ReadValidated(responses, YesNo).None? || ReadValidated(responses, YesNo).value.value != "yes"
    ensures ShowsReadingAnswers(rows, page, responses)
  {
    if 5 * page + 5 > |rows| {
      assert responses[..0] == [];
    } else {
      assert page + 1 <= FullPages(|rows|);
      ReadValidatedReadsOne(responses, YesNo);
      ReadValidatedTakesFirstAnswer(responses, YesNo);
    }
  }

  /** A "yes" after a window: one answer more than the loop from the next window read. */
  lemma ShowFromReadsStep<T>(rows: seq<T>, page: nat, responses: seq<string>)
    requires 5 * page + 5 <= |rows|
    requires ReadValidated(responses, YesNo).Some? && ReadValidated(responses, YesNo).value.value == "yes"
    requires ShowsReadingAnswers(rows, page + 1, responses[ReadValidated(responses, YesNo).value.used..])
    ensures ShowsReadingAnswers(rows, page, responses)
  {
    ShowFromYes(rows, page, responses);
    var r := ReadValidated(responses, YesNo).value;
    var rest := ShowFrom(rows, page + 1, responses[r.used..]);
    var v := ShowFrom(rows, page, responses);
    if v.ending != Unanswered {
      ReadValidatedThenCounts(responses, YesNo, rest.used, |rest.shown|, v.used, |v.shown|);
    }
  }

  /**
   * Unless the input ran out, `display_data` read exactly one yes/no answer
   * more than the windows it showed and stopped right after the last of
   * them, so the response after it is the one `main` tests for a restart.
   */
  lemma DisplayDataReadsAnswers<T>(rows: seq<T>, responses: seq<string>)
    ensures
      var v := DisplayData(rows, responses);
      v.ending != Unanswered ==> 0 < v.used && ReadsAnswers(responses, YesNo, v.used, |v.shown| + 1)
  {
    var r := ReadValidated(responses, YesNo);
    if r.Some? && r.value.value == "yes" {
      ShowFromReadsAnswers(rows, 0, responses[r.value.used..]);
      var rest := ShowFrom(rows, 0, responses[r.value.used..]);
      if rest.ending != Unanswered {
        ReadValidatedThenAnswers(responses, YesNo, rest.used, |rest.shown|);
      }
    } else if r.Some? {
      ReadValidatedReadsOne(responses, YesNo);
      ReadValidatedTakesFirstAnswer(responses, YesNo);
    }
  }

  /**
   * Twelve rows and three "yes" answers: windows [0, 5) and [5, 10) are shown,
   * and the third "yes" finds that [10, 15) would overrun, so rows 10 and 11
   * are never shown.
   */
  lemma TwelveRowsShowTwoWindows<T>(rows: seq<T>)
    requires |rows| == 12
    ensures
      var v := DisplayData(rows, ["yes", "yes", "yes"]);
      && v.shown == [rows[0..5], rows[5..10]]
      && v.ending == NoMoreData
  {
    LowerFixesLowerCase("yes");
    var responses := ["yes", "yes", "yes"];
    assert Answers(responses, YesNo) == responses by {
      assert responses[1..] == ["yes", "yes"];
      assert responses[1..][1..] == ["yes"];
    }
    DisplayDataByAnswers(rows, responses);
  }

  /** Three rows: the first "yes" already reports that no more data is left; nothing is shown. */
  lemma ThreeRowsShowNothing<T>(rows: seq<T>)
    requires |rows| == 3
    ensures DisplayData(rows, ["yes"]) == View([], NoMoreData, 1)
  {
    LowerFixesLowerCase("yes");
  }
}

=== FILE: wrappers.dfy ===
/** Failure-carrying values shared by the modules of the bikeshare model. */
module Wrappers {

  /** A value that may be absent: used for prompts whose input runs out. */
  datatype Option<+T> = None | Some(value: T)

  /** The outcome of an operation that can raise an error in the program. */
  datatype Result<+R, +E> = Success(value: R) | Failure(error: E)
}
